=== FILE: README.md ===
# Carepanion reminder pipeline, modelled in Dafny

This project models the Android side of Carepanion's task reminders, the
Kotlin code under `android/app/src/main/kotlin/com/carepanion/app/`. The
pieces are:

- **AlarmStore**: the durable list of scheduled alarms. It is a JSON array in
  the `scheduled_alarms` preference, rewritten in full on every `add` and
  `remove`.
- **AlarmScheduler**: exact one-shot OS alarms, one per request code.
- **BootReceiver**: after a reboot, registers again every stored alarm that is
  still in the future.
- **ReminderAlarmReceiver**: handles both the alarm firing and the Dismiss
  action. A fire posts an alert notification and a sticky notification.
- **ReminderFullScreenActivity**: speaks the reminder, saves the payload into
  `saved_reminder`, and hands the payload to MainActivity once per instance.
- **MainActivity**: the `scheduleAlarm`, `cancelAlarm` and `popSavedReminder`
  method-channel handlers. It also delivers reminder payloads to the Dart side
  through `showReminder`, queueing them until the engine is configured.

Every component is a pure function over immutable state:

- `Device` holds the store, the OS alarm registrations, the notification
  shade and the saved-reminder slot.
- `Main` holds MainActivity's hand-off queue.
- `Screen` holds one full-screen activity instance. The system keeps every
  instance started since the last restart.

Each I/O step that can fail is a boolean parameter: the store or preferences
throwing, `scheduleExact` or `AlarmScheduler.cancel` throwing, a notification
cancel or `startActivity` throwing, or `invokeMethod` throwing. The fire
branch's notification calls, which no `try` guards, take a fault value saying
whether the channel or alert post throws or the sticky post throws. A flush
takes the set of queue positions whose call throws.

`JSONObject(text)` is an abstract `Parser` parameter, and every property holds
for any parser. The module `Pipeline` composes the components into one
transition function, `Step`, over the whole system. It proves invariants and
end-to-end scenarios over that function.

Kotlin semantics are written out where they matter:

- `Int` addition wraps, which shows in `2000 + id`.
- `%` on `Long` truncates toward zero, which shows in the alert identity.
- `isBlank` uses Java's definition of whitespace.
- `optInt` and `optLong` truncate.
- `getIntExtra("id", -1)` defaults to -1.

The model follows the code as written, including these consequences of it:

- The receiver removes the store record of a fire, and posts its sticky
  notification at `2000 + id`, only when the intent carries an `id` extra
  (ReminderAlarmReceiver.kt:22, 37-39, 143). The Dismiss action is meant to
  "cancel the notification and any pending alarm" (ReminderAlarmReceiver.kt:113).
  But `scheduleExact` puts only a `payload` extra on the fire intent
  (AlarmScheduler.kt:13-14). A real fire therefore reads id -1, which has four
  consequences:
  - it leaves its store record in place;
  - it posts its sticky notification at the bare base id 2000;
  - its Dismiss action carries -1, so pressing Dismiss does nothing;
  - two fires overwrite each other's sticky notification.

  `Pipeline.ScheduledAlarmFires`, `Pipeline.DismissWithoutId` and
  `Pipeline.SecondFireReplacesSticky` show this.
- The alert identity is `1001 + millis % 1000`, so two fires in the same
  millisecond phase share it. It can also coincide with the sticky identity
  2000; `Notifications.AlertStickyCollision` gives the exact condition.
- The full-screen activity both saves its payload and forwards it, so the
  Dart side can receive the same reminder twice
  (`Pipeline.AlertDeliveredTwice`).
- A newer alert's full-screen activity does not stop an older one: its
  `onDestroy` leaves the speech engine and the 7-second timer running
  (ReminderFullScreenActivity.kt:119-121, 140-143). Each instance therefore
  still forwards its own payload (`Pipeline.TwoAlertsBothForward`).
- The queue is flushed only from `configureFlutterEngine`, which runs once per
  MainActivity instance. A payload queued later because `invokeMethod` threw
  stays queued until the process dies (`Pipeline.QueuedAfterConfigureStays`).

## Model

| member | source | states |
|---|---|---|
| Kotlin.AddInt | android/app/src/main/kotlin/com/carepanion/app/MainActivity.kt:45 | `Int` addition is exact in range and wraps to a negative value when two non-negative operands overflow |
| Kotlin.Rem | android/app/src/main/kotlin/com/carepanion/app/ReminderAlarmReceiver.kt:94 | `Long` `%` by a positive divisor: the remainder lies strictly between the negated divisor and the divisor, takes the dividend's sign, and equals the Euclidean remainder for a non-negative dividend or the negated remainder of the magnitude for a negative one |
| AlarmStore.Decode | android/app/src/main/kotlin/com/carepanion/app/AlarmStore.kt:58-64 | a record reads back with id `optInt("id")` and a payload exactly when the record has a `payload` key |
| AlarmStore.Encode | android/app/src/main/kotlin/com/carepanion/app/AlarmStore.kt:24-27 | the record written has a `payload` key iff the payload is non-null, and decoding it returns the same alarm (round trip, null payload included) |
| AlarmStore.OthersContents | android/app/src/main/kotlin/com/carepanion/app/AlarmStore.kt:19-23 | the copy loop keeps exactly the records whose id differs, and nothing else |
| AlarmStore.Add | android/app/src/main/kotlin/com/carepanion/app/AlarmStore.kt:14-34 | on failure the array is unchanged; otherwise it ends with the new alarm and no earlier record carries its id |
| AlarmStore.Remove | android/app/src/main/kotlin/com/carepanion/app/AlarmStore.kt:36-50 | on failure the array is unchanged; otherwise no record carries the id, and every record of another id survives |
| AlarmStore.List | android/app/src/main/kotlin/com/carepanion/app/AlarmStore.kt:52-72 | a failing read lists nothing; otherwise one decoded alarm per record, in array order |
| AlarmStore.DecodeOthers | android/app/src/main/kotlin/com/carepanion/app/AlarmStore.kt:19-23 | filtering the records by id and then decoding equals decoding and then filtering the alarms |
| AlarmStore.AddThenList | android/app/src/main/kotlin/com/carepanion/app/AlarmStore.kt:14-34 | after `add`, `list` is the old list without that id, followed by the new alarm |
| AlarmStore.AddLeavesExactlyOne | android/app/src/main/kotlin/com/carepanion/app/AlarmStore.kt:18-28 | after `add`, the only listed entry with that id is the last one, and it is the new alarm |
| AlarmStore.AddOverwrites | android/app/src/main/kotlin/com/carepanion/app/AlarmStore.kt:14-34 | adding an id twice writes the same array as only the second add |
| AlarmStore.AddIdempotent | android/app/src/main/kotlin/com/carepanion/app/AlarmStore.kt:14-34 | adding the same alarm twice writes the same array as adding it once |
| AlarmStore.OthersIdempotent | android/app/src/main/kotlin/com/carepanion/app/AlarmStore.kt:19-23 | filtering twice by an id is filtering once |
| AlarmStore.OthersAppend | android/app/src/main/kotlin/com/carepanion/app/AlarmStore.kt:19-23 | the id filter distributes over concatenation |
| AlarmStore.RemoveThenList | android/app/src/main/kotlin/com/carepanion/app/AlarmStore.kt:36-50 | after `remove`, `list` is the old list without that id's entries, order kept |
| AlarmStore.RemoveAbsent | android/app/src/main/kotlin/com/carepanion/app/AlarmStore.kt:36-50 | removing an id that no listed alarm has leaves the persisted array unchanged |
| AlarmStore.AddUniqueIds | android/app/src/main/kotlin/com/carepanion/app/AlarmStore.kt:14-34 | `add` keeps the listed ids pairwise distinct |
| AlarmStore.RemoveUniqueIds | android/app/src/main/kotlin/com/carepanion/app/AlarmStore.kt:36-50 | `remove` keeps the listed ids pairwise distinct |
| AlarmScheduler.ScheduleExact | android/app/src/main/kotlin/com/carepanion/app/AlarmScheduler.kt:11-29 | the request code maps to its time and fire intent; other registrations are untouched and no other key appears |
| AlarmScheduler.Cancel | android/app/src/main/kotlin/com/carepanion/app/AlarmScheduler.kt:31-41 | the request code loses its registration, others are untouched, and cancelling an absent code changes nothing |
| AlarmScheduler.RescheduleReplaces | android/app/src/main/kotlin/com/carepanion/app/AlarmScheduler.kt:15-21 | scheduling a request code twice equals scheduling only the second |
| AlarmScheduler.CancelUndoesSchedule | android/app/src/main/kotlin/com/carepanion/app/AlarmScheduler.kt:31-41 | cancel right after schedule equals cancel alone |
| Notifications.Post | android/app/src/main/kotlin/com/carepanion/app/ReminderAlarmReceiver.kt:94 | `notify` puts the notification under its id, replacing any earlier one there, and touches no other id |
| Notifications.CancelNotification | android/app/src/main/kotlin/com/carepanion/app/MainActivity.kt:46 | `cancel` removes exactly that id |
| Notifications.AlertId | android/app/src/main/kotlin/com/carepanion/app/ReminderAlarmReceiver.kt:94 | the alert identity is in [1001, 2000] for a clock at or after the epoch and in [2, 1001] before it; it is 2000 iff the millisecond is 999 |
| Notifications.StickyId | android/app/src/main/kotlin/com/carepanion/app/ReminderAlarmReceiver.kt:143 | a negative id gets 2000, an id up to the `Int` limit gets `2000 + id`; the identity is 2000 iff the id is not positive |
| Notifications.StickyIdsDistinct | android/app/src/main/kotlin/com/carepanion/app/ReminderAlarmReceiver.kt:143 | distinct non-negative ids get distinct sticky identities, even where `2000 + id` wraps |
| Notifications.AlertStickyCollision | android/app/src/main/kotlin/com/carepanion/app/ReminderAlarmReceiver.kt:94-144 | alert and sticky identities of one fire coincide iff the millisecond is 999 and the id is not positive |
| Notifications.AlertIdRepeatsEverySecond | android/app/src/main/kotlin/com/carepanion/app/ReminderAlarmReceiver.kt:94 | fires a whole number of seconds apart share the alert identity |
| BootReceiver.Rearm | android/app/src/main/kotlin/com/carepanion/app/BootReceiver.kt:14-20 | the loop registers exactly the ids of the listed alarms strictly after now and leaves every other registration as it was |
| BootReceiver.OnReceive | android/app/src/main/kotlin/com/carepanion/app/BootReceiver.kt:9-22 | other actions change nothing; the store, shade and saved slot are never written; boot actions add exactly the future ids |
| BootReceiver.RearmRestores | android/app/src/main/kotlin/com/carepanion/app/BootReceiver.kt:14-20 | with unique ids, each future alarm is registered with its own time and payload |
| BootReceiver.PastNeverRearmed | android/app/src/main/kotlin/com/carepanion/app/BootReceiver.kt:15-19 | an alarm at or before now, whose id no future alarm shares, gains no registration and keeps any it had |
| BootReceiver.BootRearmsFuture | android/app/src/main/kotlin/com/carepanion/app/BootReceiver.kt:10-20 | a boot broadcast re-arms exactly the future listed alarms, each as stored |
| BootReceiver.BootUnreadableStore | android/app/src/main/kotlin/com/carepanion/app/BootReceiver.kt:14 | when `list` fails, boot re-arms nothing |
| ReminderAlarmReceiver.ReceivedId | android/app/src/main/kotlin/com/carepanion/app/ReminderAlarmReceiver.kt:22 | an intent with an `id` extra reads that id; one without reads -1 |
| ReminderAlarmReceiver.DismissIntent | android/app/src/main/kotlin/com/carepanion/app/ReminderAlarmReceiver.kt:114-117 | the Dismiss broadcast has the dismiss action and reads back the id it was built with |
| ReminderAlarmReceiver.Title | android/app/src/main/kotlin/com/carepanion/app/ReminderAlarmReceiver.kt:42-52 | the title is `task_title` when the payload parses and it is not blank, otherwise "Task Reminder"; never blank |
| ReminderAlarmReceiver.Body | android/app/src/main/kotlin/com/carepanion/app/ReminderAlarmReceiver.kt:43-52 | the generic body for a null or unparseable payload; otherwise `task_note` if not blank, else the task text; never blank |
| ReminderAlarmReceiver.Dismiss | android/app/src/main/kotlin/com/carepanion/app/ReminderAlarmReceiver.kt:23-35 | a negative id, or a throwing first step, changes nothing; the steps run in order and stop at the first throw; with no fault, the sticky notification and the alarm are gone, and the store record too unless the store write fails, in which case the store is unchanged; no alarm or notification is ever added, and the saved slot is never touched |
| ReminderAlarmReceiver.Fire | android/app/src/main/kotlin/com/carepanion/app/ReminderAlarmReceiver.kt:36-146 | the store record is removed iff the id is not -1 and the write succeeds, whatever the notification calls do afterwards; with no throw exactly the alert and sticky identities are added, with the chosen title and body and the sticky's Dismiss carrying the received id; a throwing channel or alert post adds nothing, and a throwing sticky post adds only the alert; alarms are untouched |
| ReminderAlarmReceiver.OnReceive | android/app/src/main/kotlin/com/carepanion/app/ReminderAlarmReceiver.kt:20-39 | the dismiss action runs the dismiss branch on the received id, only removes notifications, and does nothing for a negative id; every other broadcast adds at most the alert and sticky identities, and exactly those when no post throws |
| ReminderAlarmReceiver.OnReceiveKeepsUniqueIds | android/app/src/main/kotlin/com/carepanion/app/ReminderAlarmReceiver.kt:23-39 | neither branch can break the uniqueness of listed ids |
| ReminderAlarmReceiver.OnReceiveKeepsDismissWired | android/app/src/main/kotlin/com/carepanion/app/ReminderAlarmReceiver.kt:113-139 | the receiver posts stickies only with a Dismiss that broadcasts the dismiss action, so every posted sticky keeps that wiring |
| ReminderAlarmReceiver.ScheduledFireGap | android/app/src/main/kotlin/com/carepanion/app/AlarmScheduler.kt:13-14 | a fire from `scheduleExact` keeps the store record and posts the sticky at 2000 with Dismiss carrying -1, and that Dismiss changes nothing |
| ReminderAlarmReceiver.DismissAfterFire | android/app/src/main/kotlin/com/carepanion/app/ReminderAlarmReceiver.kt:114-144 | for a fire that did carry a non-negative id, its Dismiss clears the sticky notification, the alarm and every store record for the id |
| ReminderFullScreen.Utterance | android/app/src/main/kotlin/com/carepanion/app/ReminderFullScreenActivity.kt:54-72 | the speech is the `task_title` member whenever the payload parses and has one, even an empty one; otherwise the generic phrase |
| ReminderFullScreen.ForwardToMain | android/app/src/main/kotlin/com/carepanion/app/ReminderFullScreenActivity.kt:124-138 | the first call sets the guard, finishes, and launches with the payload unless `startActivity` throws; later calls change nothing; it preserves the instance invariant |
| ReminderFullScreen.Create | android/app/src/main/kotlin/com/carepanion/app/ReminderFullScreenActivity.kt:21-104 | a new instance is valid, carries the selected payload, and forwards at once exactly when setting up speech throws |
| ReminderFullScreen.ForwardAtMostOnce | android/app/src/main/kotlin/com/carepanion/app/ReminderFullScreenActivity.kt:124-126 | any sequence of callbacks keeps the instance valid and launches MainActivity at most once, never again once forwarded |
| ReminderFullScreen.ForwardingCallbackForwards | android/app/src/main/kotlin/com/carepanion/app/ReminderFullScreenActivity.kt:68-121 | every callback except an engine start that manages to speak calls `forwardToMain`, so any such callback in the sequence (the 7-second timer always is one) leaves the instance forwarded and finished |
| ReminderFullScreen.StaysForwarded | android/app/src/main/kotlin/com/carepanion/app/ReminderFullScreenActivity.kt:125 | once forwarded, an instance stays forwarded and launches nothing more |
| MainActivity.ScheduleAlarm | android/app/src/main/kotlin/com/carepanion/app/MainActivity.kt:28-36 | a throwing `scheduleExact` answers `alarm_error` and changes nothing; otherwise the id (default 0) gets the registration, the store lists it last without older entries for the id, and the reply is success |
| MainActivity.CancelAlarm | android/app/src/main/kotlin/com/carepanion/app/MainActivity.kt:37-51 | a throwing `AlarmScheduler.cancel` answers `alarm_error` and changes nothing; otherwise the id (default 0) loses its registration and store entries, notification `2000 + id` (wrapping) is cancelled unless that throws, and the reply is success |
| MainActivity.ScheduleTwice | android/app/src/main/kotlin/com/carepanion/app/MainActivity.kt:28-36 | scheduling an id twice equals scheduling only the second: one registration, one store entry, ids still unique |
| MainActivity.CancelAbsent | android/app/src/main/kotlin/com/carepanion/app/MainActivity.kt:37-51 | cancelling an id with no alarm, record or sticky notification changes nothing |
| MainActivity.PopTwice | android/app/src/main/kotlin/com/carepanion/app/MainActivity.kt:142-154 | a second pop with no save in between answers null |
| HandOff.ShowArg | android/app/src/main/kotlin/com/carepanion/app/MainActivity.kt:185-193 | the argument is the non-empty `task_id` when there is one, the raw payload otherwise, including when parsing fails |
| HandOff.ForwardOrQueue | android/app/src/main/kotlin/com/carepanion/app/MainActivity.kt:183-204 | nothing is lost: the queue and the deliveries only grow at their ends, and together by exactly one, either the payload queued at the back or its `showReminder` argument delivered; the delivery happens exactly when the engine is ready and the call succeeds |
| HandOff.FlushPartitions | android/app/src/main/kotlin/com/carepanion/app/MainActivity.kt:210-225 | the payloads sent and those kept together are the queue, as a multiset: nothing dropped, nothing duplicated |
| HandOff.KeptIsSubsequence | android/app/src/main/kotlin/com/carepanion/app/MainActivity.kt:210-225 | the kept payloads are a subsequence of the queue: original order, no additions |
| HandOff.Flush | android/app/src/main/kotlin/com/carepanion/app/MainActivity.kt:206-226 | an empty queue changes nothing; otherwise the queue becomes the failed payloads in order and the deliveries gain the arguments of exactly the others, oldest first, after the earlier deliveries |
| HandOff.FlushPendingPayloads | android/app/src/main/kotlin/com/carepanion/app/MainActivity.kt:206-226 | the iterator loop keeps exactly the failed payloads and sends the arguments of the others, oldest first |
| HandOff.FlushExtremes | android/app/src/main/kotlin/com/carepanion/app/MainActivity.kt:213-224 | when every call throws the queue is kept whole; when none does, it is emptied |
| HandOff.OnNewIntent | android/app/src/main/kotlin/com/carepanion/app/MainActivity.kt:174-181 | an intent without `reminder_payload` changes nothing; with one, queue plus deliveries grow by exactly one and neither loses an entry |
| HandOff.ConfigureEngine | android/app/src/main/kotlin/com/carepanion/app/MainActivity.kt:163-171 | the engine is ready afterwards, earlier deliveries stay, and without a launch payload the queue keeps exactly the failed payloads and the successfully flushed payloads' `showReminder` arguments are appended to the deliveries in queue order |
| HandOff.LaunchPayloadFirst | android/app/src/main/kotlin/com/carepanion/app/MainActivity.kt:163-171 | a launch payload whose call succeeds reaches the Dart side before every queued payload; one whose call fails is retried last in the same flush |
| Pipeline.Step | android/app/src/main/kotlin/com/carepanion/app/MainActivity.kt:25-181 | exactly the method calls reply; no event loses a delivery to the Dart side; calls, due alarms and Dismiss leave MainActivity and the full-screen instances alone; a second engine configuration changes nothing |
| Pipeline.AlarmDueStep | android/app/src/main/kotlin/com/carepanion/app/AlarmScheduler.kt:21-28 | an unknown request code changes nothing; a due alarm's registration is consumed and the device then becomes exactly what the receiver makes of the registered broadcast intent, with MainActivity and the screens untouched |
| Pipeline.RebootStep | android/app/src/main/kotlin/com/carepanion/app/BootReceiver.kt:9-22 | a restart keeps the store and saved slot, empties the shade and queue, and registers exactly the future stored ids |
| Pipeline.DismissStep | android/app/src/main/kotlin/com/carepanion/app/ReminderAlarmReceiver.kt:114-139 | pressing Dismiss on a posted sticky runs the receiver's dismiss branch on the id its Dismiss intent carries; on anything else it changes nothing; MainActivity, the full-screen instances and the saved slot are untouched |
| Pipeline.AlertShownStep | android/app/src/main/kotlin/com/carepanion/app/ReminderAlarmReceiver.kt:55-94 | an alert adds a valid full-screen instance with its payload after the earlier ones, which stay; a tap removes the alert (auto-cancel) and a system launch leaves it; the payload is saved unless the write throws, and the instance has forwarded iff speech setup threw; when it forwarded at creation and the launch succeeded, MainActivity receives the payload as a new intent, otherwise MainActivity is unchanged |
| Pipeline.StickyTappedStep | android/app/src/main/kotlin/com/carepanion/app/ReminderAlarmReceiver.kt:99-138 | tapping a sticky notification removes it and opens MainActivity with its payload |
| Pipeline.ScreenCallbackStep | android/app/src/main/kotlin/com/carepanion/app/ReminderFullScreenActivity.kt:124-138 | a callback updates only the instance it is addressed to, touches no device state, and an unknown instance changes nothing; MainActivity receives the instance's payload as a new intent exactly when the callback is the instance's first forwarding one and its launch succeeds, and is unchanged otherwise |
| Pipeline.EngineConfiguredStep | android/app/src/main/kotlin/com/carepanion/app/MainActivity.kt:163-171 | engine configuration runs `configureFlutterEngine` only for an activity that is not yet configured; for a configured one it changes nothing |
| Pipeline.StepKeepsUniqueIds | android/app/src/main/kotlin/com/carepanion/app/AlarmStore.kt:14-50 | every event keeps the listed store ids pairwise distinct |
| Pipeline.StepKeepsDismissWired | android/app/src/main/kotlin/com/carepanion/app/ReminderAlarmReceiver.kt:113-139 | every event keeps each posted sticky's Dismiss wired to the dismiss action |
| Pipeline.RunKeepsInv | android/app/src/main/kotlin/com/carepanion/app/MainActivity.kt:183-226 | over any run the invariant holds (unique store ids, wired Dismiss actions, valid full-screen instances), and the Dart side's deliveries only grow |
| Pipeline.InitRunKeepsInv | android/app/src/main/kotlin/com/carepanion/app/AlarmStore.kt:52-56 | a fresh install (empty store read as `[]`, no alarms, notifications or saved payload, empty queue) satisfies the invariant, and so does every run from it |
| Pipeline.ScreenHandsOffOnce | android/app/src/main/kotlin/com/carepanion/app/ReminderFullScreenActivity.kt:124-138 | whatever callbacks arrive for one full-screen instance, it launches MainActivity at most once, with its own payload |
| Pipeline.ScheduleSurvivesReboot | android/app/src/main/kotlin/com/carepanion/app/BootReceiver.kt:14-20 | an alarm scheduled for after the reboot is registered again with its time and payload |
| Pipeline.ScheduledAlarmFires | android/app/src/main/kotlin/com/carepanion/app/AlarmScheduler.kt:13-14 | when a scheduled alarm fires, its registration is gone but its store record stays, and the sticky at 2000 carries a Dismiss with -1 |
| Pipeline.DismissWithoutId | android/app/src/main/kotlin/com/carepanion/app/ReminderAlarmReceiver.kt:23-25 | pressing a Dismiss that carries -1 changes nothing |
| Pipeline.SecondFireReplacesSticky | android/app/src/main/kotlin/com/carepanion/app/ReminderAlarmReceiver.kt:143-144 | two scheduled alarms firing in turn post to the same sticky id, the second replacing the first |
| Pipeline.AlertDeliveredTwice | android/app/src/main/kotlin/com/carepanion/app/ReminderFullScreenActivity.kt:101-116 | a full-screen instance both delivers `showReminder` and leaves the payload for `popSavedReminder` |
| Pipeline.SaveThenPop | android/app/src/main/kotlin/com/carepanion/app/ReminderFullScreenActivity.kt:106-116 | after an alert's activity saves its payload, `popSavedReminder` answers that payload (or the older one when the write threw) and clears the slot; a second pop answers null |
| Pipeline.AlertWaitsForCallback | android/app/src/main/kotlin/com/carepanion/app/ReminderFullScreenActivity.kt:68-121 | an alert whose speech setup succeeds adds an unforwarded instance and hands nothing over until a callback |
| Pipeline.TappedAlertShowsOnce | android/app/src/main/kotlin/com/carepanion/app/ReminderAlarmReceiver.kt:86-88 | tapping an alert removes it, so the same alert cannot bring up a second full-screen activity |
| Pipeline.TimerDelivers | android/app/src/main/kotlin/com/carepanion/app/ReminderFullScreenActivity.kt:118-121 | the 7-second timer of an instance that has not forwarded delivers its payload to a configured MainActivity and touches no other instance |
| Pipeline.TimerQueuesWhenNotReady | android/app/src/main/kotlin/com/carepanion/app/MainActivity.kt:194-197 | on a cold start, the timer of an instance that has not forwarded queues its payload at the back of MainActivity's queue while the engine is not configured, and delivers nothing yet |
| Pipeline.TwoAlertsBothForward | android/app/src/main/kotlin/com/carepanion/app/ReminderFullScreenActivity.kt:119-143 | two alerts shown before any callback each forward their own payload when their timers fire, so the Dart side receives both, oldest first |
| Pipeline.QueuedAfterConfigureStays | android/app/src/main/kotlin/com/carepanion/app/MainActivity.kt:183-204 | a payload queued by a configured MainActivity because `invokeMethod` threw is not flushed by any later engine configuration |
| Pipeline.CancelClears | android/app/src/main/kotlin/com/carepanion/app/MainActivity.kt:37-51 | after `cancelAlarm`, no registration and no store record for the id remain |
| Pipeline.RebootDropsQueue | android/app/src/main/kotlin/com/carepanion/app/MainActivity.kt:19 | a reboot loses the in-memory queue and every full-screen instance; the store survives |

## Left out

- ReminderForegroundService and the supabase `send-feedback` function are not part of the pipeline modelled here.
- The other method-channel handlers (MainActivity.kt:52-141) are not modelled. They open system settings pages and report permissions.
- Vibration, the speech engine's audio, window flags, logging and notification channel setup have no effect on the modelled state and are left out.
- The 7000 ms fallback delay is not modelled as time. The timer is one more callback that can arrive in any order.
- `Build.VERSION` branching is not modelled: both SDK paths register the same exact alarm and post the same notifications.
- PendingIntent flags and request codes are not modelled. The broadcast per request code is the key of the alarm map. The alert's full-screen and content PendingIntents all use request code 0 with FLAG_UPDATE_CURRENT (ReminderAlarmReceiver.kt:61-63, 86-89), so each fire rewrites the `reminder_payload` extra they carry, and tapping an older alert after a newer fire opens the activity with the newer payload. The model keeps each alert's own payload instead.
- The model covers only the string and number members a reminder record holds. Full JSON is not modelled, and `optInt`/`optLong` coercion of numeric strings is not modelled.
- Boot re-arming treats `scheduleExact` as not throwing inside the loop. A throw there would abort the rest of the loop, and that is not modelled.
- SharedPreferences' asynchronous `apply()` is treated as an immediate write.
- Concurrency between receivers and activities is not modelled. Every event runs to completion before the next one.
- A cold start of MainActivity from a launch is modelled as `onNewIntent` followed by a later engine configuration. Separate MainActivity instances are not modelled: one hand-off state lives until the process dies, and the engine is configured once in that time.
- Pipeline.AlertShownStep: the system launches an alert's full-screen intent once when the alert is posted, but the model lets an untapped alert bring up the activity again. Only a tap, which removes the alert, limits it. Counting system launches per post is not modelled.
- Process death without a reboot is not an event. Only `Reboot` drops MainActivity's queue and the full-screen instances, so "until the process dies" means until the next reboot here.
- ReminderAlarmReceiver.Fire: an exception escaping `onReceive` ends the broadcast, which the model shows. The process crash it causes on Android, and the loss of in-memory state that follows, is not modelled.
- Android's task handling of `FLAG_ACTIVITY_CLEAR_TOP` is not modelled. Every full-screen instance keeps receiving its own callbacks until the process dies.
- The `notImplemented` reply and arguments of the wrong type are not modelled. A missing argument is modelled; a wrongly typed one is not.

=== FILE: alarm_scheduler.dfy ===
/**
 * AlarmScheduler: exact one-shot alarms registered with the OS alarm service,
 * keyed by request code. Registering a request code again replaces the
 * earlier alarm, because the broadcast PendingIntent for that code is reused.
 */
module AlarmScheduler {
  import opened Wrappers
  import opened Kotlin

  /** A broadcast intent addressed to ReminderAlarmReceiver, with its extras. */
  datatype ReceiverIntent = ReceiverIntent(action: Option<string>, payload: Option<string>, id: Option<Int32>)

  /** One exact alarm held by the OS: when it fires and what it delivers. */
  datatype Registration = Registration(triggerAtMillis: Int64, intent: ReceiverIntent)

  /** The OS alarm registrations of the app, by request code. */
  type Alarms = map<Int32, Registration>

  /**
   * The intent `scheduleExact` attaches: no action and a `payload` extra only.
   * It carries no `id` extra, so the receiver cannot tell which alarm fired.
   */
  function FireIntent(payload: Option<string>): (i: ReceiverIntent)
    ensures i.payload == payload
    ensures i.id.None? && i.action.None?
  {
    ReceiverIntent(None, payload, None)
  }

  /** `scheduleExact(triggerAtMillis, requestCode, payload)`. */
  function ScheduleExact(alarms: Alarms, triggerAtMillis: Int64, requestCode: Int32, payload: Option<string>): (r: Alarms)
    ensures requestCode in r && r[requestCode] == Registration(triggerAtMillis, FireIntent(payload))
    ensures r.Keys == alarms.Keys + {requestCode}
    ensures forall k :: k in alarms && k != requestCode ==> r[k] == alarms[k]
  {
    alarms[requestCode := Registration(triggerAtMillis, FireIntent(payload))]
  }

  /** `cancel(requestCode)`: no-op when nothing is registered under it. */
  function Cancel(alarms: Alarms, requestCode: Int32): (r: Alarms)
    ensures r.Keys == alarms.Keys - {requestCode}
    ensures forall k :: k in r ==> r[k] == alarms[k]
    ensures requestCode !in alarms ==> r == alarms
  {
    alarms - {requestCode}
  }

  /** Scheduling a request code twice leaves only the second registration. */
  lemma RescheduleReplaces(alarms: Alarms, t1: Int64, t2: Int64, requestCode: Int32, p1: Option<string>, p2: Option<string>)
    ensures ScheduleExact(ScheduleExact(alarms, t1, requestCode, p1), t2, requestCode, p2)
         == ScheduleExact(alarms, t2, requestCode, p2)
  {
  }

  /** Cancelling right after scheduling is the same as only cancelling. */
  lemma CancelUndoesSchedule(alarms: Alarms, t: Int64, requestCode: Int32, p: Option<string>)
    ensures Cancel(ScheduleExact(alarms, t, requestCode, p), requestCode) == Cancel(alarms, requestCode)
  {
  }
}

=== FILE: alarm_store.dfy ===
/**
 * AlarmStore: the durable list of scheduled alarms, kept as a JSON array in
 * the `scheduled_alarms` preference. Every mutation reads the whole array,
 * rebuilds it and writes it back; every failure is swallowed.
 */
module AlarmStore {
  import opened Wrappers
  import opened Kotlin

  /** One durable alarm as `list` returns it. */
  datatype StoredAlarm = StoredAlarm(id: Int32, whenUtc: Int64, payload: Option<string>)

  /** The member values the store writes into its JSON records. */
  datatype JsonValue = JNumber(n: int) | JString(s: string)

  /** One element of the persisted JSON array. */
  type Record = map<string, JsonValue>

  /** The persisted `scheduled_alarms` array. */
  type Prefs = seq<Record>

  /** `optInt(key)`: a number truncated to `Int`; 0 when absent or not a number. */
  function OptInt(o: Record, key: string): Int32 {
    if key in o && o[key].JNumber? then WrapInt32(o[key].n) else 0
  }

  /** `optLong(key)`: a number truncated to `Long`; 0 when absent or not a number. */
  function OptLong(o: Record, key: string): Int64 {
    if key in o && o[key].JNumber? then WrapInt64(o[key].n) else 0
  }

  /** `optString(key)` on a present member: a string as is, a number in decimal. */
  function OptStringValue(v: JsonValue): string {
    match v
    case JString(s) => s
    case JNumber(n) => IntToString(n)
  }

  /** The id that `add` and `remove` compare against: `obj.optInt("id")`. */
  function RecordId(o: Record): Int32 {
    OptInt(o, "id")
  }

  /** Reads one record back the way `list` does. */
  function Decode(o: Record): (a: StoredAlarm)
    ensures a.id == RecordId(o)
    ensures a.payload.Some? <==> "payload" in o
  {
    StoredAlarm(
      OptInt(o, "id"),
      OptLong(o, "whenUtc"),
      if "payload" in o then Some(OptStringValue(o["payload"])) else None)
  }

  /**
   * The record `add` builds: `id` and `whenUtc` always, `payload` only when it
   * is non-null. Reading it back gives the same alarm, a null payload included.
   */
  function Encode(a: StoredAlarm): (o: Record)
    ensures "payload" in o <==> a.payload.Some?
    ensures a.payload.Some? ==> o["payload"] == JString(a.payload.value)
    ensures RecordId(o) == a.id
    ensures Decode(o) == a
  {
    var base := map["id" := JNumber(a.id), "whenUtc" := JNumber(a.whenUtc)];
    if a.payload.Some? then base["payload" := JString(a.payload.value)] else base
  }

  /**
   * The copy loop shared by `add` and `remove`: the records whose id differs
   * from `id`, in their original order.
   */
  function Others(prefs: Prefs, id: Int32): (r: Prefs)
    ensures |r| <= |prefs|
    decreases |prefs|
  {
    if |prefs| == 0 then []
    else (if RecordId(prefs[0]) != id then [prefs[0]] else []) + Others(prefs[1..], id)
  }

  /** The filter keeps exactly the records of the other ids. */
  lemma {:induction false} OthersContents(prefs: Prefs, id: Int32)
    ensures forall o :: o in Others(prefs, id) ==> o in prefs && RecordId(o) != id
    ensures forall o :: o in prefs && RecordId(o) != id ==> o in Others(prefs, id)
    decreases |prefs|
  {
    if |prefs| > 0 {
      OthersContents(prefs[1..], id);
      assert prefs == [prefs[0]] + prefs[1..];
    }
  }

  /**
   * `add(id, whenUtc, payload)`: an upsert. `ok` is false when reading,
   * parsing or writing the preference throws; the exception is swallowed and
   * nothing is written.
   */
  function Add(prefs: Prefs, id: Int32, whenUtc: Int64, payload: Option<string>, ok: bool): (r: Prefs)
    ensures !ok ==> r == prefs
    ensures ok ==> |r| >= 1 && Decode(r[|r| - 1]) == StoredAlarm(id, whenUtc, payload)
    ensures ok ==> forall i :: 0 <= i < |r| - 1 ==> RecordId(r[i]) != id
  {
    OthersContents(prefs, id);
    if ok then Others(prefs, id) + [Encode(StoredAlarm(id, whenUtc, payload))] else prefs
  }

  /** `remove(id)`; `ok` as for `Add`. */
  function Remove(prefs: Prefs, id: Int32, ok: bool): (r: Prefs)
    ensures !ok ==> r == prefs
    ensures ok ==> forall o :: o in r ==> RecordId(o) != id
    ensures forall o :: o in prefs && RecordId(o) != id ==> o in r
  {
    OthersContents(prefs, id);
    if ok then Others(prefs, id) else prefs
  }

  /** Decodes every record, in array order. */
  function DecodeAll(prefs: Prefs): (r: seq<StoredAlarm>)
    ensures |r| == |prefs|
    ensures forall i :: 0 <= i < |r| ==> r[i] == Decode(prefs[i])
    decreases |prefs|
  {
    if |prefs| == 0 then [] else [Decode(prefs[0])] + DecodeAll(prefs[1..])
  }

  /** `list()`: the decoded alarms, or the empty list when reading or parsing throws (`ok` false). */
  function List(prefs: Prefs, ok: bool): (r: seq<StoredAlarm>)
    ensures !ok ==> r == []
    ensures ok ==> |r| == |prefs| && forall i :: 0 <= i < |r| ==> r[i] == Decode(prefs[i])
  {
    if ok then DecodeAll(prefs) else []
  }

  // ---------------------------------------------------------------------------
  // A list-level reference definition and the properties of add/remove

  /** Reference definition: `alarms` without the entries for `id`, order kept. */
  function Without(alarms: seq<StoredAlarm>, id: Int32): (r: seq<StoredAlarm>)
    ensures |r| <= |alarms|
    ensures forall a :: a in r ==> a in alarms && a.id != id
    ensures forall a :: a in alarms && a.id != id ==> a in r
    decreases |alarms|
  {
    if |alarms| == 0 then []
    else (if alarms[0].id != id then [alarms[0]] else []) + Without(alarms[1..], id)
  }

  /** The ids in a list are pairwise distinct. */
  predicate UniqueIds(alarms: seq<StoredAlarm>) {
    forall i, j :: 0 <= i < j < |alarms| ==> alarms[i].id != alarms[j].id
  }

  /** Filtering the records and then decoding equals decoding and then filtering. */
  lemma {:induction false} DecodeOthers(prefs: Prefs, id: Int32)
    ensures DecodeAll(Others(prefs, id)) == Without(DecodeAll(prefs), id)
    decreases |prefs|
  {
    if |prefs| > 0 {
      DecodeOthers(prefs[1..], id);
      var head := if RecordId(prefs[0]) != id then [prefs[0]] else [];
      DecodeAppend(head, Others(prefs[1..], id));
      assert DecodeAll(prefs)[1..] == DecodeAll(prefs[1..]);
    }
  }

  /** Decoding distributes over concatenation. */
  lemma {:induction false} DecodeAppend(a: Prefs, b: Prefs)
    ensures DecodeAll(a + b) == DecodeAll(a) + DecodeAll(b)
  {
    assert forall i :: 0 <= i < |a| + |b| ==> (a + b)[i] == if i < |a| then a[i] else b[i - |a|];
  }

  /**
   * After `add(id, whenUtc, payload)`, `list` is the old list without the
   * entries for `id`, in their original order, followed by the new entry.
   */
  lemma AddThenList(prefs: Prefs, id: Int32, whenUtc: Int64, payload: Option<string>)
    ensures List(Add(prefs, id, whenUtc, payload, true), true)
         == Without(List(prefs, true), id) + [StoredAlarm(id, whenUtc, payload)]
  {
    var e := Encode(StoredAlarm(id, whenUtc, payload));
    DecodeAppend(Others(prefs, id), [e]);
    DecodeOthers(prefs, id);
  }

  /** After `add`, `list` holds exactly one entry for `id`, and it is the alarm just added. */
  lemma AddLeavesExactlyOne(prefs: Prefs, id: Int32, whenUtc: Int64, payload: Option<string>)
    ensures var l := List(Add(prefs, id, whenUtc, payload, true), true);
      && |l| >= 1
      && l[|l| - 1] == StoredAlarm(id, whenUtc, payload)
      && forall i :: 0 <= i < |l| && l[i].id == id ==> i == |l| - 1
  {
  }

  /** Adding an id again replaces the first add: the array is as if only the second add ran. */
  lemma AddOverwrites(prefs: Prefs, id: Int32, w1: Int64, p1: Option<string>, w2: Int64, p2: Option<string>)
    ensures Add(Add(prefs, id, w1, p1, true), id, w2, p2, true) == Add(prefs, id, w2, p2, true)
  {
    OthersAppendMatching(Others(prefs, id), Encode(StoredAlarm(id, w1, p1)), id);
    OthersIdempotent(prefs, id);
  }

  /** Adding the same alarm twice writes the same array as adding it once. */
  lemma AddIdempotent(prefs: Prefs, id: Int32, whenUtc: Int64, payload: Option<string>)
    ensures Add(Add(prefs, id, whenUtc, payload, true), id, whenUtc, payload, true)
         == Add(prefs, id, whenUtc, payload, true)
  {
    AddOverwrites(prefs, id, whenUtc, payload, whenUtc, payload);
  }

  /** Filtering twice by the same id is filtering once. */
  lemma {:induction false} OthersIdempotent(prefs: Prefs, id: Int32)
    ensures Others(Others(prefs, id), id) == Others(prefs, id)
    decreases |prefs|
  {
    if |prefs| > 0 {
      OthersIdempotent(prefs[1..], id);
      var head := if RecordId(prefs[0]) != id then [prefs[0]] else [];
      OthersAppend(head, Others(prefs[1..], id), id);
      if RecordId(prefs[0]) != id {
        assert ([prefs[0]])[1..] == [];
      }
    }
  }

  /** Filtering distributes over concatenation. */
  lemma {:induction false} OthersAppend(a: Prefs, b: Prefs, id: Int32)
    ensures Others(a + b, id) == Others(a, id) + Others(b, id)
    decreases |a|
  {
    if |a| > 0 {
      var head := if RecordId(a[0]) != id then [a[0]] else [];
      OthersAppend(a[1..], b, id);
      assert (a + b)[0] == a[0];
      assert (a + b)[1..] == a[1..] + b;
      calc {
        Others(a + b, id);
        head + Others(a[1..] + b, id);
        head + (Others(a[1..], id) + Others(b, id));
        Others(a, id) + Others(b, id);
      }
    } else {
      assert a + b == b;
    }
  }

  /** A trailing record for `id` disappears under the filter for `id`. */
  lemma OthersAppendMatching(prefs: Prefs, o: Record, id: Int32)
    requires RecordId(o) == id
    ensures Others(prefs + [o], id) == Others(prefs, id)
  {
    OthersAppend(prefs, [o], id);
    assert Others([o], id) == [] + Others([], id);
  }

  /** After `remove(id)`, `list` is the old list without the entries for `id`, order kept. */
  lemma RemoveThenList(prefs: Prefs, id: Int32)
    ensures List(Remove(prefs, id, true), true) == Without(List(prefs, true), id)
  {
    DecodeOthers(prefs, id);
  }

  /** Filtering by an id no record carries keeps the array as it was. */
  lemma {:induction false} OthersAbsent(prefs: Prefs, id: Int32)
    requires forall o :: o in prefs ==> RecordId(o) != id
    ensures Others(prefs, id) == prefs
    decreases |prefs|
  {
    if |prefs| > 0 {
      assert prefs[0] in prefs;
      assert forall o :: o in prefs[1..] ==> o in prefs;
      OthersAbsent(prefs[1..], id);
      assert prefs == [prefs[0]] + prefs[1..];
    }
  }

  /** `remove` of an id that `list` does not show leaves the persisted array unchanged. */
  lemma RemoveAbsent(prefs: Prefs, id: Int32)
    requires forall a :: a in List(prefs, true) ==> a.id != id
    ensures Remove(prefs, id, true) == prefs
  {
    forall o | o in prefs
      ensures RecordId(o) != id
    {
      var i :| 0 <= i < |prefs| && prefs[i] == o;
      assert List(prefs, true)[i] == Decode(o);
    }
    OthersAbsent(prefs, id);
  }

  /** `add` keeps ids unique in the list. */
  lemma AddUniqueIds(prefs: Prefs, id: Int32, whenUtc: Int64, payload: Option<string>)
    requires UniqueIds(List(prefs, true))
    ensures UniqueIds(List(Add(prefs, id, whenUtc, payload, true), true))
  {
    AddThenList(prefs, id, whenUtc, payload);
    WithoutUnique(List(prefs, true), id);
  }

  /** `remove` keeps ids unique in the list. */
  lemma RemoveUniqueIds(prefs: Prefs, id: Int32)
    requires UniqueIds(List(prefs, true))
    ensures UniqueIds(List(Remove(prefs, id, true), true))
  {
    RemoveThenList(prefs, id);
    WithoutUnique(List(prefs, true), id);
  }

  /** Filtering keeps ids unique. */
  lemma {:induction false} WithoutUnique(alarms: seq<StoredAlarm>, id: Int32)
    requires UniqueIds(alarms)
    ensures UniqueIds(Without(alarms, id))
    decreases |alarms|
  {
    if |alarms| > 0 {
      var rest := alarms[1..];
      assert UniqueIds(rest) by {
        forall i, j | 0 <= i < j < |rest| ensures rest[i].id != rest[j].id {
          assert rest[i] == alarms[i + 1] && rest[j] == alarms[j + 1];
        }
      }
      WithoutUnique(rest, id);
      var w := Without(rest, id);
      forall a | a in w ensures a.id != alarms[0].id {
        var k :| 0 <= k < |rest| && rest[k] == a;
        assert alarms[k + 1] == a;
      }
    }
  }
}

=== FILE: boot_receiver.dfy ===
/**
 * BootReceiver: OS alarms do not survive a reboot, so on boot every stored
 * alarm still in the future is registered again. Alarms already due are
 * skipped and left in the store.
 */
module BootReceiver {
  import opened Kotlin
  import opened AlarmStore
  import opened AlarmScheduler
  import opened Device

  const ACTION_BOOT_COMPLETED := "android.intent.action.BOOT_COMPLETED"
  const ACTION_LOCKED_BOOT_COMPLETED := "android.intent.action.LOCKED_BOOT_COMPLETED"

  /** The ids of the listed alarms strictly after `now`. */
  function FutureIds(stored: seq<StoredAlarm>, now: Int64): set<Int32> {
    set a | a in stored && a.whenUtc > now :: a.id
  }

  /**
   * The loop over `list()`: `scheduleExact` for each alarm after `now`, in
   * list order. Exactly the future ids gain a registration; every other
   * registration is untouched.
   */
  function Rearm(alarms: Alarms, stored: seq<StoredAlarm>, now: Int64): (r: Alarms)
    ensures r.Keys == alarms.Keys + FutureIds(stored, now)
    ensures forall k :: k in alarms && k !in FutureIds(stored, now) ==> r[k] == alarms[k]
    decreases |stored|
  {
    if |stored| == 0 then alarms
    else
      var a := stored[0];
      var next := if a.whenUtc > now then ScheduleExact(alarms, a.whenUtc, a.id, a.payload) else alarms;
      assert FutureIds(stored, now) == (if a.whenUtc > now then {a.id} else {}) + FutureIds(stored[1..], now) by {
        assert stored == [a] + stored[1..];
      }
      Rearm(next, stored[1..], now)
  }

  /** `onReceive(action)`: only the two boot actions do anything; the store is read but never written. */
  function OnReceive(d: Device, action: string, now: Int64, listOk: bool): (r: Device)
    ensures action != ACTION_BOOT_COMPLETED && action != ACTION_LOCKED_BOOT_COMPLETED ==> r == d
    ensures r.prefs == d.prefs && r.shade == d.shade && r.saved == d.saved
    ensures action == ACTION_BOOT_COMPLETED || action == ACTION_LOCKED_BOOT_COMPLETED ==>
      r.alarms.Keys == d.alarms.Keys + FutureIds(List(d.prefs, listOk), now)
  {
    if action == ACTION_BOOT_COMPLETED || action == ACTION_LOCKED_BOOT_COMPLETED then
      d.(alarms := Rearm(d.alarms, List(d.prefs, listOk), now))
    else d
  }

  /**
   * With unique ids in the list, every future alarm is registered again with
   * its own time and payload.
   */
  lemma {:induction false} RearmRestores(alarms: Alarms, stored: seq<StoredAlarm>, now: Int64)
    requires UniqueIds(stored)
    ensures forall a :: a in stored && a.whenUtc > now ==>
      Rearm(alarms, stored, now)[a.id] == Registration(a.whenUtc, FireIntent(a.payload))
    decreases |stored|
  {
    if |stored| > 0 {
      var a := stored[0];
      var rest := stored[1..];
      assert UniqueIds(rest) by {
        forall i, j | 0 <= i < j < |rest| ensures rest[i].id != rest[j].id {
          assert rest[i] == stored[i + 1] && rest[j] == stored[j + 1];
        }
      }
      var next := if a.whenUtc > now then ScheduleExact(alarms, a.whenUtc, a.id, a.payload) else alarms;
      RearmRestores(next, rest, now);
      assert a.id !in FutureIds(rest, now) by {
        forall b | b in rest ensures b.id != a.id {
          var k :| 0 <= k < |rest| && rest[k] == b;
          assert stored[k + 1] == b;
        }
      }
      assert stored == [a] + rest;
    }
  }

  /**
   * An alarm at or before `now` whose id no future alarm shares is never
   * registered by the boot pass: it keeps whatever registration it had, and
   * gains none.
   */
  lemma PastNeverRearmed(alarms: Alarms, stored: seq<StoredAlarm>, now: Int64, a: StoredAlarm)
    requires a in stored && a.whenUtc <= now
    requires forall b :: b in stored && b.id == a.id ==> b.whenUtc <= now
    ensures a.id in Rearm(alarms, stored, now) <==> a.id in alarms
    ensures a.id in alarms ==> Rearm(alarms, stored, now)[a.id] == alarms[a.id]
  {
  }

  /**
   * A boot re-arms exactly the listed alarms strictly after `now`, each with
   * its own id, time and payload, given the unique ids `add` maintains.
   */
  lemma BootRearmsFuture(d: Device, action: string, now: Int64)
    requires action == ACTION_BOOT_COMPLETED || action == ACTION_LOCKED_BOOT_COMPLETED
    requires UniqueIds(List(d.prefs, true))
    ensures var r := OnReceive(d, action, now, true);
      && r.alarms.Keys == d.alarms.Keys + FutureIds(List(d.prefs, true), now)
      && (forall a :: a in List(d.prefs, true) && a.whenUtc > now ==>
            r.alarms[a.id] == Registration(a.whenUtc, FireIntent(a.payload)))
  {
    RearmRestores(d.alarms, List(d.prefs, true), now);
  }

  /** A store that cannot be read re-arms nothing. */
  lemma BootUnreadableStore(d: Device, action: string, now: Int64)
    ensures OnReceive(d, action, now, false) == d
  {
  }
}

=== FILE: device.dfy ===
/** The state the reminder pipeline keeps outside any one component. */
module Device {
  import opened Wrappers
  import opened AlarmStore
  import opened AlarmScheduler
  import opened Notifications

  /**
   * `prefs` is the `scheduled_alarms` preference, `alarms` the OS alarm
   * registrations, `shade` the posted notifications and `saved` the
   * `saved_reminder` preference.
   */
  datatype Device = Device(prefs: Prefs, alarms: Alarms, shade: Shade, saved: Option<string>)
}

=== FILE: hand_off.dfy ===
/**
 * The payload hand-off of MainActivity: reminder payloads reach the Dart side
 * through `showReminder`, queued while the engine is not configured and
 * flushed, oldest first, once it is.
 */
module HandOff {
  import opened Wrappers
  import opened Kotlin

  /**
   * The activity's hand-off state: whether the engine is configured, the
   * in-memory `pendingPayloads` queue, and the `showReminder` arguments the
   * Dart side has received, oldest first.
   */
  datatype Main = Main(engineReady: bool, pending: seq<string>, delivered: seq<string>)

  /** `JSONObject(payload).optString("task_id")`, or "" when the payload does not parse. */
  function TaskId(payload: string, parse: Parser): string {
    match parse(payload)
    case Some(o) => OptString(o, "task_id")
    case None => ""
  }

  /** The `showReminder` argument: the task id when non-empty, else the raw payload. */
  function ShowArg(payload: string, parse: Parser): (a: string)
    ensures a == payload || (parse(payload).Some? && a == OptString(parse(payload).value, "task_id") && a != "")
    ensures TaskId(payload, parse) != "" ==> a == TaskId(payload, parse)
    ensures parse(payload).None? ==> a == payload
  {
    var taskId := TaskId(payload, parse);
    if taskId != "" then taskId else payload
  }

  /**
   * `forwardOrQueuePayload`: with the engine ready, one `showReminder` call;
   * without it, or when the call throws (`invokeOk` false), the payload goes
   * to the back of the queue.
   */
  function ForwardOrQueue(m: Main, payload: string, invokeOk: bool, parse: Parser): (r: Main)
    ensures r.engineReady == m.engineReady
    ensures m.pending <= r.pending && m.delivered <= r.delivered
    ensures |r.pending| + |r.delivered| == |m.pending| + |m.delivered| + 1
    ensures r.pending == m.pending + [payload] || r.delivered == m.delivered + [ShowArg(payload, parse)]
    ensures m.engineReady && invokeOk ==> r.pending == m.pending && r.delivered == m.delivered + [ShowArg(payload, parse)]
    ensures !m.engineReady || !invokeOk ==> r.pending == m.pending + [payload] && r.delivered == m.delivered
  {
    if m.engineReady && invokeOk then m.(delivered := m.delivered + [ShowArg(payload, parse)])
    else m.(pending := m.pending + [payload])
  }

  /** `a` is `b` with some elements left out, order kept. */
  predicate IsSubsequence(a: seq<string>, b: seq<string>)
    decreases |b|
  {
    if |a| == 0 then true
    else if |b| == 0 then false
    else if a[0] == b[0] then IsSubsequence(a[1..], b[1..])
    else IsSubsequence(a, b[1..])
  }

  /**
   * The payloads a flush keeps: those whose call throws. `base + i` in
   * `failures` means the call for the `i`-th payload of `q` throws.
   */
  function Kept(q: seq<string>, failures: set<nat>, base: nat): (r: seq<string>)
    ensures |r| <= |q|
    decreases |q|
  {
    if |q| == 0 then []
    else (if base !in failures then [] else [q[0]]) + Kept(q[1..], failures, base + 1)
  }

  /** The payloads whose call succeeds, in queue order. */
  function Succeeded(q: seq<string>, failures: set<nat>, base: nat): (r: seq<string>)
    ensures |r| <= |q|
    decreases |q|
  {
    if |q| == 0 then []
    else (if base !in failures then [q[0]] else []) + Succeeded(q[1..], failures, base + 1)
  }

  /** A flush neither drops nor duplicates: kept and sent payloads together are the queue. */
  lemma {:induction false} FlushPartitions(q: seq<string>, failures: set<nat>, base: nat)
    ensures multiset(Succeeded(q, failures, base)) + multiset(Kept(q, failures, base)) == multiset(q)
    ensures |Succeeded(q, failures, base)| + |Kept(q, failures, base)| == |q|
    decreases |q|
  {
    if |q| > 0 {
      FlushPartitions(q[1..], failures, base + 1);
      assert q == [q[0]] + q[1..];
    }
  }

  /** The `showReminder` arguments for a run of payloads. */
  function Args(q: seq<string>, parse: Parser): (r: seq<string>)
    ensures |r| == |q|
    decreases |q|
  {
    if |q| == 0 then [] else [ShowArg(q[0], parse)] + Args(q[1..], parse)
  }

  /**
   * `flushPendingPayloads`: one call per queued payload, oldest first; the
   * successful ones leave the queue, the failed ones stay in their order.
   * An empty queue makes no call.
   */
  function Flush(m: Main, failures: set<nat>, parse: Parser): (r: Main)
    ensures r.engineReady == m.engineReady
    ensures m.pending == [] ==> r == m
    ensures m.delivered <= r.delivered
    ensures |r.delivered| == |m.delivered| + |m.pending| - |r.pending|
    ensures m.pending != [] ==>
      && r.pending == Kept(m.pending, failures, 0)
      && r.delivered == m.delivered + Args(Succeeded(m.pending, failures, 0), parse)
    ensures multiset(r.pending) <= multiset(m.pending)
    ensures IsSubsequence(r.pending, m.pending)
  {
    KeptIsSubsequence(m.pending, failures, 0);
    FlushPartitions(m.pending, failures, 0);
    if m.pending == [] then m
    else
      var kept := Kept(m.pending, failures, 0);
      var sent := Succeeded(m.pending, failures, 0);
      m.(pending := kept, delivered := m.delivered + Args(sent, parse))
  }

  /** The loop form of the flush: walks the queue once, FIFO, collecting kept payloads and arguments sent. */
  method FlushPendingPayloads(pending: seq<string>, failures: set<nat>, parse: Parser) returns (kept: seq<string>, sent: seq<string>)
    ensures kept == Kept(pending, failures, 0)
    ensures sent == Args(Succeeded(pending, failures, 0), parse)
    ensures |kept| + |sent| == |pending|
  {
    kept, sent := [], [];
    if |pending| == 0 {
      return;
    }
    var i := 0;
    assert pending[0..] == pending;
    while i < |pending|
      invariant 0 <= i <= |pending|
      invariant kept + Kept(pending[i..], failures, i) == Kept(pending, failures, 0)
      invariant sent + Args(Succeeded(pending[i..], failures, i), parse) == Args(Succeeded(pending, failures, 0), parse)
    {
      FlushStep(pending, failures, parse, i, kept, sent);
      kept := kept + (if i !in failures then [] else [pending[i]]);
      sent := sent + (if i !in failures then [ShowArg(pending[i], parse)] else []);
      i := i + 1;
    }
    assert pending[i..] == [];
    FlushPartitions(pending, failures, 0);
  }

  /** One step of the flush loop: the payload at `i` is sent or kept, the rest follows. */
  lemma KeptStep(q: seq<string>, failures: set<nat>, i: nat)
    requires i < |q|
    ensures Kept(q[i..], failures, i) == (if i !in failures then [] else [q[i]]) + Kept(q[i + 1..], failures, i + 1)
    ensures Succeeded(q[i..], failures, i) == (if i !in failures then [q[i]] else []) + Succeeded(q[i + 1..], failures, i + 1)
  {
    assert q[i..][1..] == q[i + 1..];
  }

  /** The loop invariant of the flush survives handling the payload at `i`. */
  lemma FlushStep(q: seq<string>, failures: set<nat>, parse: Parser, i: nat, kept: seq<string>, sent: seq<string>)
    requires i < |q|
    requires kept + Kept(q[i..], failures, i) == Kept(q, failures, 0)
    requires sent + Args(Succeeded(q[i..], failures, i), parse) == Args(Succeeded(q, failures, 0), parse)
    ensures kept + (if i !in failures then [] else [q[i]]) + Kept(q[i + 1..], failures, i + 1) == Kept(q, failures, 0)
    ensures sent + (if i !in failures then [ShowArg(q[i], parse)] else []) + Args(Succeeded(q[i + 1..], failures, i + 1), parse)
         == Args(Succeeded(q, failures, 0), parse)
  {
    var x := if i !in failures then [] else [q[i]];
    var k := Kept(q[i + 1..], failures, i + 1);
    KeptStep(q, failures, i);
    Assoc(kept, x, k);
    var y := if i !in failures then [ShowArg(q[i], parse)] else [];
    var a := Args(Succeeded(q[i + 1..], failures, i + 1), parse);
    SentStep(q, failures, i, parse);
    Assoc(sent, y, a);
  }

  /** Concatenation regrouped, stated once so the step proofs need not rediscover it. */
  lemma Assoc(a: seq<string>, b: seq<string>, c: seq<string>)
    ensures a + b + c == a + (b + c)
  {
  }

  /** One step of the flush loop on the arguments sent. */
  lemma SentStep(q: seq<string>, failures: set<nat>, i: nat, parse: Parser)
    requires i < |q|
    ensures Args(Succeeded(q[i..], failures, i), parse)
         == (if i !in failures then [ShowArg(q[i], parse)] else []) + Args(Succeeded(q[i + 1..], failures, i + 1), parse)
  {
    KeptStep(q, failures, i);
    ArgsAppend(if i !in failures then [q[i]] else [], Succeeded(q[i + 1..], failures, i + 1), parse);
  }

  /** The argument list of a concatenation is the concatenation of argument lists. */
  lemma {:induction false} ArgsAppend(a: seq<string>, b: seq<string>, parse: Parser)
    ensures Args(a + b, parse) == Args(a, parse) + Args(b, parse)
    decreases |a|
  {
    if |a| > 0 {
      ArgsAppend(a[1..], b, parse);
      assert (a + b)[0] == a[0];
      assert (a + b)[1..] == a[1..] + b;
    } else {
      assert a + b == b;
    }
  }

  /** The kept payloads are a subsequence of the queue: nothing reordered, nothing added. */
  lemma {:induction false} KeptIsSubsequence(q: seq<string>, failures: set<nat>, base: nat)
    ensures IsSubsequence(Kept(q, failures, base), q)
    decreases |q|
  {
    if |q| > 0 {
      KeptIsSubsequence(q[1..], failures, base + 1);
      if base in failures {
        assert Kept(q, failures, base) == [q[0]] + Kept(q[1..], failures, base + 1);
        assert Kept(q, failures, base)[1..] == Kept(q[1..], failures, base + 1);
      } else {
        var k := Kept(q[1..], failures, base + 1);
        assert Kept(q, failures, base) == k;
        assert IsSubsequence(k, q[1..]);
        SubsequenceOfTail(k, q);
      }
    }
  }

  /** A subsequence of the tail is a subsequence of the whole. */
  lemma {:induction false} SubsequenceOfTail(a: seq<string>, b: seq<string>)
    requires |b| > 0 && IsSubsequence(a, b[1..])
    ensures IsSubsequence(a, b)
    decreases |b|, |a|
  {
    if |a| > 0 && a[0] == b[0] {
      DropHead(a, b[1..]);
    }
  }

  /** Dropping the head of a subsequence keeps it a subsequence. */
  lemma {:induction false} DropHead(a: seq<string>, b: seq<string>)
    requires |a| > 0 && IsSubsequence(a, b)
    ensures IsSubsequence(a[1..], b)
    decreases |b|, |a|
  {
    if a[0] == b[0] {
      SubsequenceOfTail(a[1..], b);
    } else {
      DropHead(a, b[1..]);
      SubsequenceOfTail(a[1..], b);
    }
  }

  /** A flush where every call fails keeps the whole queue; one where every call succeeds empties it. */
  lemma {:induction false} FlushExtremes(q: seq<string>, failures: set<nat>, base: nat)
    ensures (forall i :: base <= i < base + |q| ==> i in failures) ==> Kept(q, failures, base) == q
    ensures (forall i :: base <= i < base + |q| ==> i !in failures) ==> Kept(q, failures, base) == []
    decreases |q|
  {
    if |q| > 0 {
      FlushExtremes(q[1..], failures, base + 1);
      assert q == [q[0]] + q[1..];
    }
  }

  /** `onNewIntent`: forwards or queues the `reminder_payload` extra when there is one. */
  function OnNewIntent(m: Main, payload: Option<string>, invokeOk: bool, parse: Parser): (r: Main)
    ensures payload.None? ==> r == m
    ensures r.engineReady == m.engineReady
    ensures m.pending <= r.pending && m.delivered <= r.delivered
    ensures payload.Some? ==> |r.pending| + |r.delivered| == |m.pending| + |m.delivered| + 1
    ensures payload.Some? ==> r == ForwardOrQueue(m, payload.value, invokeOk, parse)
  {
    if payload.Some? then ForwardOrQueue(m, payload.value, invokeOk, parse) else m
  }

  /**
   * `configureFlutterEngine`: the engine is ready from here on; the launch
   * intent's payload is forwarded first, then the queue is flushed.
   */
  function ConfigureEngine(m: Main, launchPayload: Option<string>, invokeOk: bool, failures: set<nat>, parse: Parser): (r: Main)
    ensures r.engineReady
    ensures m.delivered <= r.delivered
    ensures launchPayload.None? ==> r.pending == Kept(m.pending, failures, 0)
    ensures launchPayload.None? ==> r.delivered == m.delivered + Args(Succeeded(m.pending, failures, 0), parse)
  {
    var ready := m.(engineReady := true);
    var forwarded := OnNewIntent(ready, launchPayload, invokeOk, parse);
    Flush(forwarded, failures, parse)
  }

  /**
   * At engine configuration, a launch payload whose call succeeds reaches the
   * Dart side before every queued payload; one whose call fails joins the back
   * of the queue and is retried by the same flush, after the older payloads.
   */
  lemma LaunchPayloadFirst(m: Main, p: string, invokeOk: bool, failures: set<nat>, parse: Parser)
    ensures var r := ConfigureEngine(m, Some(p), invokeOk, failures, parse);
      if invokeOk then
        && r.delivered == m.delivered + [ShowArg(p, parse)] + Args(Succeeded(m.pending, failures, 0), parse)
        && r.pending == Kept(m.pending, failures, 0)
      else
        && r.delivered == m.delivered + Args(Succeeded(m.pending + [p], failures, 0), parse)
        && r.pending == Kept(m.pending + [p], failures, 0)
  {
  }
}

=== FILE: kotlin.dfy ===
/**
 * The pieces of Kotlin/JVM value semantics the reminder pipeline depends on:
 * 32- and 64-bit integers with two's-complement wrap-around, the truncating
 * remainder `%`, `isBlank`, and an abstract view of `org.json.JSONObject`.
 */
module Kotlin {
  import opened Wrappers

  const INT32_MIN: int := -0x8000_0000
  const INT32_MAX: int := 0x7fff_ffff

  /** Kotlin `Int`. */
  type Int32 = x: int | -0x8000_0000 <= x < 0x8000_0000

  /** Kotlin `Long`. */
  type Int64 = x: int | -0x8000_0000_0000_0000 < x < 0x8000_0000_0000_0000 || x == -0x8000_0000_0000_0000

  /** Reduces an integer to `Int` the way the JVM does: keep the low 32 bits, two's complement. */
  function WrapInt32(x: int): (r: Int32)
    ensures INT32_MIN <= x <= INT32_MAX ==> r == x
  {
    (x + 0x8000_0000) % 0x1_0000_0000 - 0x8000_0000
  }

  /** Reduces an integer to `Long` the way the JVM does. */
  function WrapInt64(x: int): (r: Int64)
    ensures -0x8000_0000_0000_0000 <= x < 0x8000_0000_0000_0000 ==> r == x
  {
    (x + 0x8000_0000_0000_0000) % 0x1_0000_0000_0000_0000 - 0x8000_0000_0000_0000
  }

  /** Kotlin `a + b` on two `Int` values (overflow wraps). */
  function AddInt(a: Int32, b: Int32): (r: Int32)
    ensures INT32_MIN <= a + b <= INT32_MAX ==> r == a + b
    ensures a >= 0 && b >= 0 && a + b > INT32_MAX ==> r < 0
  {
    WrapInt32(a + b)
  }

  /**
   * Kotlin `a % b` on `Long` for a positive divisor: the quotient is truncated
   * toward zero, so the remainder takes the sign of the dividend (unlike
   * Dafny's Euclidean `%`).
   */
  function Rem(a: int, b: int): (r: int)
    requires b > 0
    ensures -b < r < b
    ensures a >= 0 ==> 0 <= r
    ensures a <= 0 ==> r <= 0
    ensures a >= 0 ==> r == a % b
    ensures a < 0 ==> r == -((-a) % b)
  {
    if a >= 0 then a % b else -((-a) % b)
  }

  /**
   * `Char.isWhitespace()`: Java's `Character.isWhitespace` or
   * `Character.isSpaceChar`, that is the Unicode space, line and paragraph
   * separators plus the ASCII controls U+0009..U+000D and U+001C..U+001F.
   */
  predicate IsWhitespace(c: char) {
    || '\t' <= c <= '\r'
    || '\U{1C}' <= c <= '\U{1F}'
    || c == ' '
    || c == '\U{A0}'
    || c == '\U{1680}'
    || '\U{2000}' <= c <= '\U{200A}'
    || c == '\U{2028}' || c == '\U{2029}'
    || c == '\U{202F}' || c == '\U{205F}' || c == '\U{3000}'
  }

  /** `CharSequence.isBlank()`: empty, or whitespace only. */
  predicate IsBlank(s: string) {
    forall i :: 0 <= i < |s| ==> IsWhitespace(s[i])
  }

  /** `String?.isNullOrBlank()`. */
  predicate IsNullOrBlank(s: Option<string>) {
    s.None? || IsBlank(s.value)
  }

  /**
   * A parsed JSON object, seen only through its string-valued members; the
   * pipeline never reads any other kind of member from a reminder payload.
   */
  type JsonObject = map<string, string>

  /**
   * `JSONObject(text)`: `None` where the constructor throws. The model never
   * looks inside the parser, so every operation that parses takes it as a
   * parameter and every property holds for any parser.
   */
  type Parser = string -> Option<JsonObject>

  /** `JSONObject.optString(key)`: the member, or the empty string when it is absent. */
  function OptString(o: JsonObject, key: string): (r: string)
    ensures key in o ==> r == o[key]
    ensures key !in o ==> r == ""
  {
    if key in o then o[key] else ""
  }

  /** Renders a natural number in decimal, as `Long.toString` does. */
  function NatToString(n: nat): (r: string)
    ensures |r| >= 1
    ensures forall i :: 0 <= i < |r| ==> '0' <= r[i] <= '9'
    decreases n
  {
    var d := [(('0' as int) + n % 10) as char];
    if n < 10 then d else NatToString(n / 10) + d
  }

  /** Renders an integer in decimal with a leading `-` when negative. */
  function IntToString(n: int): (r: string)
    ensures |r| >= 1
    ensures n < 0 <==> r[0] == '-'
  {
    if n < 0 then "-" + NatToString(-n) else NatToString(n)
  }
}

=== FILE: main_activity.dfy ===
/**
 * MainActivity's method-channel handlers the Dart side calls:
 * `scheduleAlarm`, `cancelAlarm` and `popSavedReminder`. The payload
 * hand-off in the other direction is the HandOff module.
 */
module MainActivity {
  import opened Wrappers
  import opened Kotlin
  import opened AlarmStore
  import opened AlarmScheduler
  import opened Notifications
  import opened Device

  // ---------------------------------------------------------------------------
  // Method-channel handlers

  /** What a handler sends back through `result`. */
  datatype Reply = Success(value: Option<string>) | Error(code: string)

  datatype Handled = Handled(device: Device, reply: Reply)

  /**
   * `scheduleAlarm`: registers the OS alarm, then upserts the store record.
   * A missing `when` or `id` argument is 0. When `scheduleExact` throws (for
   * instance without the exact-alarm permission) the store is not written
   * and the call fails with `alarm_error`.
   */
  function ScheduleAlarm(d: Device, when: Option<Int64>, id: Option<Int32>, payload: Option<string>, scheduleOk: bool, storeOk: bool): (r: Handled)
    ensures !scheduleOk ==> r == Handled(d, Error("alarm_error"))
    ensures scheduleOk ==> r.reply == Success(None)
    ensures scheduleOk ==>
      var i := id.GetOr(0);
      && i in r.device.alarms
      && r.device.alarms[i] == Registration(when.GetOr(0), FireIntent(payload))
      && r.device.alarms.Keys == d.alarms.Keys + {i}
      && (forall k :: k in d.alarms && k != i ==> r.device.alarms[k] == d.alarms[k])
    ensures scheduleOk && storeOk ==>
      List(r.device.prefs, true) == Without(List(d.prefs, true), id.GetOr(0)) + [StoredAlarm(id.GetOr(0), when.GetOr(0), payload)]
    ensures !storeOk ==> r.device.prefs == d.prefs
    ensures r.device.shade == d.shade && r.device.saved == d.saved
  {
    var i := id.GetOr(0);
    var w := when.GetOr(0);
    if !scheduleOk then Handled(d, Error("alarm_error"))
    else
      AddThenList(d.prefs, i, w, payload);
      Handled(d.(alarms := ScheduleExact(d.alarms, w, i, payload), prefs := Add(d.prefs, i, w, payload, storeOk)), Success(None))
  }

  /**
   * `cancelAlarm`: cancels the OS alarm, removes the store record and cancels
   * notification `2000 + id` (in `Int` arithmetic, for any id). A missing id
   * is 0. A failing notification cancel is swallowed, but `AlarmScheduler.cancel`
   * runs outside that inner `try`: when it throws (`cancelOk` false) the store
   * and the shade are left alone and the outer handler answers `alarm_error`.
   */
  function CancelAlarm(d: Device, id: Option<Int32>, cancelOk: bool, storeOk: bool, notifyOk: bool): (r: Handled)
    ensures !cancelOk ==> r == Handled(d, Error("alarm_error"))
    ensures cancelOk ==> r.reply == Success(None)
    ensures cancelOk ==> id.GetOr(0) !in r.device.alarms
    ensures r.device.alarms.Keys == d.alarms.Keys - (if cancelOk then {id.GetOr(0)} else {})
    ensures forall k :: k in r.device.alarms ==> r.device.alarms[k] == d.alarms[k]
    ensures cancelOk && storeOk ==> List(r.device.prefs, true) == Without(List(d.prefs, true), id.GetOr(0))
    ensures !storeOk ==> r.device.prefs == d.prefs
    ensures cancelOk && notifyOk ==> r.device.shade.Keys == d.shade.Keys - {AddInt(2000, id.GetOr(0))}
    ensures !notifyOk ==> r.device.shade == d.shade
    ensures forall k :: k in r.device.shade ==> r.device.shade[k] == d.shade[k]
    ensures r.device.saved == d.saved
  {
    var i := id.GetOr(0);
    if !cancelOk then Handled(d, Error("alarm_error"))
    else
      RemoveThenList(d.prefs, i);
      var shade := if notifyOk then CancelNotification(d.shade, AddInt(2000, i)) else d.shade;
      Handled(d.(alarms := Cancel(d.alarms, i), prefs := Remove(d.prefs, i, storeOk), shade := shade), Success(None))
  }

  /**
   * `popSavedReminder`: replies with the saved payload (null when none) and
   * clears the slot. When the preferences throw, nothing changes and the
   * call fails with `prefs_error`.
   */
  function PopSavedReminder(d: Device, prefsOk: bool): (r: Handled)
    ensures prefsOk ==> r.reply == Success(d.saved) && r.device.saved.None?
    ensures prefsOk ==> r.device == d.(saved := None)
    ensures !prefsOk ==> r == Handled(d, Error("prefs_error"))
  {
    if !prefsOk then Handled(d, Error("prefs_error"))
    else Handled(d.(saved := None), Success(d.saved))
  }

  /** Scheduling the same id twice leaves one registration and one store record, both the second. */
  lemma ScheduleTwice(d: Device, id: Int32, t1: Int64, p1: Option<string>, t2: Int64, p2: Option<string>)
    requires UniqueIds(List(d.prefs, true))
    ensures var r := ScheduleAlarm(ScheduleAlarm(d, Some(t1), Some(id), p1, true, true).device, Some(t2), Some(id), p2, true, true).device;
      && r == ScheduleAlarm(d, Some(t2), Some(id), p2, true, true).device
      && r.alarms[id] == Registration(t2, FireIntent(p2))
      && UniqueIds(List(r.prefs, true))
      && (forall a :: a in List(r.prefs, true) && a.id == id ==> a == StoredAlarm(id, t2, p2))
  {
    var once := ScheduleAlarm(d, Some(t1), Some(id), p1, true, true).device;
    var twice := ScheduleAlarm(once, Some(t2), Some(id), p2, true, true).device;
    var direct := ScheduleAlarm(d, Some(t2), Some(id), p2, true, true).device;
    assert twice.prefs == direct.prefs by {
      assert once.prefs == Add(d.prefs, id, t1, p1, true);
      AddOverwrites(d.prefs, id, t1, p1, t2, p2);
    }
    assert twice.alarms == direct.alarms by {
      RescheduleReplaces(d.alarms, t1, t2, id, p1, p2);
    }
    assert direct.prefs == Add(d.prefs, id, t2, p2, true);
    AddUniqueIds(d.prefs, id, t2, p2);
    AddLeavesExactlyOne(d.prefs, id, t2, p2);
  }

  /** Cancelling an id with no alarm, no store record and no notification at `2000 + id` changes nothing. */
  lemma CancelAbsent(d: Device, id: Int32, cancelOk: bool, storeOk: bool, notifyOk: bool)
    requires id !in d.alarms
    requires forall a :: a in List(d.prefs, true) ==> a.id != id
    requires AddInt(2000, id) !in d.shade
    ensures CancelAlarm(d, Some(id), cancelOk, storeOk, notifyOk).device == d
  {
    RemoveAbsent(d.prefs, id);
  }

  /** A second pop with no save in between replies null. */
  lemma PopTwice(d: Device)
    ensures var first := PopSavedReminder(d, true);
      && first.reply == Success(d.saved)
      && PopSavedReminder(first.device, true).reply == Success(None)
  {
  }
}

=== FILE: notifications.dfy ===
/**
 * The notifications ReminderAlarmReceiver posts and the identities it gives
 * them: a time-salted alert identity and a per-alarm sticky identity.
 */
module Notifications {
  import opened Wrappers
  import opened Kotlin
  import opened AlarmScheduler

  const NOTIF_ID: Int32 := 1001
  const STICKY_BASE_ID: Int32 := 2000

  /**
   * The two kinds the receiver posts. An alert opens the full-screen activity
   * with `reminder_payload`; a sticky one opens MainActivity with it and has a
   * Dismiss action that broadcasts `dismiss` back to the receiver.
   */
  datatype Kind =
    | Alert(fullScreenPayload: Option<string>)
    | Sticky(tapPayload: Option<string>, dismiss: ReceiverIntent)

  datatype Notification = Notification(title: string, body: string, kind: Kind)

  /** The app's posted notifications, by notification id. */
  type Shade = map<Int32, Notification>

  /** `notify(id, n)`: posts, replacing any notification with the same id. */
  function Post(shade: Shade, id: Int32, n: Notification): (r: Shade)
    ensures id in r && r[id] == n
    ensures r.Keys == shade.Keys + {id}
    ensures forall k :: k in shade && k != id ==> r[k] == shade[k]
  {
    shade[id := n]
  }

  /** `cancel(id)`: no-op when nothing is posted under `id`. */
  function CancelNotification(shade: Shade, id: Int32): (r: Shade)
    ensures r.Keys == shade.Keys - {id}
    ensures forall k :: k in r ==> r[k] == shade[k]
  {
    shade - {id}
  }

  /**
   * The alert identity `NOTIF_ID + (currentTimeMillis % 1000)`. For a clock at
   * or after the epoch it lies in [1001, 2000]; the remainder truncates, so a
   * clock before the epoch gives [2, 1001].
   */
  function AlertId(millis: Int64): (n: Int32)
    ensures millis >= 0 ==> 1001 <= n <= 2000
    ensures millis < 0 ==> 2 <= n <= 1001
    ensures n == 2000 <==> millis >= 0 && millis % 1000 == 999
  {
    NOTIF_ID + Rem(millis, 1000)
  }

  /**
   * The sticky identity: `STICKY_BASE_ID + id` for a non-negative id (in `Int`
   * arithmetic), `STICKY_BASE_ID` otherwise. It is the base exactly when the
   * id is not positive.
   */
  function StickyId(id: Int32): (n: Int32)
    ensures id < 0 ==> n == STICKY_BASE_ID
    ensures 0 <= id <= INT32_MAX - 2000 ==> n == 2000 + id
    ensures n == STICKY_BASE_ID <==> id <= 0
  {
    if id >= 0 then AddInt(STICKY_BASE_ID, id) else STICKY_BASE_ID
  }

  /** Distinct non-negative ids get distinct sticky identities. */
  lemma StickyIdsDistinct(a: Int32, b: Int32)
    requires 0 <= a && 0 <= b && a != b
    ensures StickyId(a) != StickyId(b)
  {
  }

  /**
   * The alert and sticky identities of one fire coincide exactly when both are
   * 2000: the clock's millisecond is 999 and the id is not positive. The sticky
   * post then replaces the alert.
   */
  lemma AlertStickyCollision(millis: Int64, id: Int32)
    ensures AlertId(millis) == StickyId(id) <==> millis >= 0 && millis % 1000 == 999 && id <= 0
  {
  }

  /** Fires a whole number of seconds apart get the same alert identity. */
  lemma AlertIdRepeatsEverySecond(millis: Int64, k: nat)
    requires millis >= 0 && millis + 1000 * k < 0x8000_0000_0000_0000
    ensures AlertId(millis) == AlertId(millis + 1000 * k)
  {
    assert (millis + 1000 * k) % 1000 == millis % 1000;
  }
}

=== FILE: pipeline.dfy ===
/**
 * The reminder pipeline end to end: the Dart side's method calls, the OS
 * delivering due alarms and boot broadcasts, the user acting on
 * notifications, the full-screen activity's callbacks and MainActivity's
 * engine configuration, each as one transition of the whole system.
 */
module Pipeline {
  import opened Wrappers
  import opened Kotlin
  import opened AlarmStore
  import opened AlarmScheduler
  import opened Notifications
  import opened Device
  import opened ReminderFullScreen
  import opened HandOff
  import MainActivity
  import BootReceiver
  import ReminderAlarmReceiver

  /**
   * The device, MainActivity's hand-off state and every full-screen activity
   * instance started since the last restart, oldest first. An instance is
   * never dropped: a newer alert's activity does not stop the speech engine
   * or the fallback timer of an older one, so each can still forward.
   */
  datatype System = System(device: Device, main: Main, screens: seq<Screen>)

  /** Everything that can happen to the system, with the outcome of each I/O step it performs. */
  datatype Event =
      /** The Dart side calls `scheduleAlarm`. */
    | ScheduleCall(when: Option<Int64>, id: Option<Int32>, payload: Option<string>, scheduleOk: bool, storeOk: bool)
      /** The Dart side calls `cancelAlarm`. */
    | CancelCall(id: Option<Int32>, cancelOk: bool, storeOk: bool, notifyOk: bool)
      /** The Dart side calls `popSavedReminder`. */
    | PopCall(prefsOk: bool)
      /** The OS delivers the alarm registered under `requestCode` at `millis`. */
    | AlarmDue(requestCode: Int32, millis: Int64, storeOk: bool, post: ReminderAlarmReceiver.PostFault)
      /** The device restarts and BootReceiver gets `BOOT_COMPLETED` at `now`. */
    | Reboot(now: Int64, listOk: bool)
      /** The user presses Dismiss on the notification `notifId`. */
    | DismissPressed(notifId: Int32, millis: Int64, storeOk: bool, fault: ReminderAlarmReceiver.DismissFault)
      /**
       * The alert `notifId` brings up the full-screen activity: launched by
       * the system as its full-screen intent, or by the user tapping it
       * (`tapped`), which auto-cancels the alert.
       */
    | AlertShown(notifId: Int32, tapped: bool, ttsSetupOk: bool, saveOk: bool, launchOk: bool, invokeOk: bool)
      /** The user taps the sticky notification `notifId`, which opens MainActivity. */
    | StickyTapped(notifId: Int32, invokeOk: bool)
      /** The full-screen activity `index` (in start order) receives a speech or timer callback. */
    | ScreenCallback(index: nat, cb: Callback, invokeOk: bool)
      /** MainActivity's engine is configured, with the launch intent's payload; once per activity instance. */
    | EngineConfigured(launchPayload: Option<string>, invokeOk: bool, failures: set<nat>)

  /** A transition's result: the new system and the reply of a method call, if the event was one. */
  datatype Stepped = Stepped(sys: System, reply: Option<MainActivity.Reply>)

  /** Whether an event is a method call from the Dart side. */
  predicate IsCall(e: Event) {
    e.ScheduleCall? || e.CancelCall? || e.PopCall?
  }

  /**
   * A launch of MainActivity the screen made between `before` and `after`
   * reaches `onNewIntent` with the screen's payload.
   */
  function DeliverLaunch(m: Main, before: Screen, after: Screen, invokeOk: bool, parse: Parser): (r: Main)
    ensures |after.launches| <= |before.launches| ==> r == m
    ensures |after.launches| > |before.launches| ==> r == OnNewIntent(m, after.payload, invokeOk, parse)
  {
    if |after.launches| > |before.launches| then OnNewIntent(m, after.payload, invokeOk, parse) else m
  }

  /**
   * The OS delivers a due alarm: the one-shot registration is consumed and its
   * intent reaches ReminderAlarmReceiver. An unknown request code does nothing.
   */
  function AlarmDueStep(s: System, requestCode: Int32, millis: Int64, storeOk: bool, post: ReminderAlarmReceiver.PostFault, parse: Parser): (r: System)
    ensures r.main == s.main && r.screens == s.screens
    ensures requestCode !in s.device.alarms ==> r == s
    ensures requestCode in s.device.alarms ==> requestCode !in r.device.alarms
    ensures requestCode in s.device.alarms ==>
      r.device == ReminderAlarmReceiver.OnReceive(s.device.(alarms := Cancel(s.device.alarms, requestCode)),
                    s.device.alarms[requestCode].intent, millis, storeOk, ReminderAlarmReceiver.NoFault, post, parse)
  {
    var d := s.device;
    if requestCode in d.alarms then
      var intent := d.alarms[requestCode].intent;
      var d' := d.(alarms := Cancel(d.alarms, requestCode));
      s.(device := ReminderAlarmReceiver.OnReceive(d', intent, millis, storeOk, ReminderAlarmReceiver.NoFault, post, parse))
    else s
  }

  /**
   * A restart loses the OS alarms, the posted notifications, the full-screen
   * activity and MainActivity's queue; then BootReceiver runs.
   */
  function RebootStep(s: System, now: Int64, listOk: bool): (r: System)
    ensures r.device.prefs == s.device.prefs && r.device.saved == s.device.saved
    ensures r.device.shade == map[] && r.screens == []
    ensures r.main == Main(false, [], s.main.delivered)
    ensures r.device.alarms.Keys == BootReceiver.FutureIds(List(s.device.prefs, listOk), now)
  {
    var cold := s.device.(alarms := map[], shade := map[]);
    System(BootReceiver.OnReceive(cold, BootReceiver.ACTION_BOOT_COMPLETED, now, listOk), Main(false, [], s.main.delivered), [])
  }

  /** Dismiss on a sticky notification sends its dismiss intent to ReminderAlarmReceiver. */
  function DismissStep(s: System, notifId: Int32, millis: Int64, storeOk: bool, fault: ReminderAlarmReceiver.DismissFault, parse: Parser): (r: System)
    ensures r.main == s.main && r.screens == s.screens && r.device.saved == s.device.saved
    ensures !(notifId in s.device.shade && s.device.shade[notifId].kind.Sticky?) ==> r == s
    ensures notifId in s.device.shade && s.device.shade[notifId].kind.Sticky? ==>
      var i := s.device.shade[notifId].kind.dismiss;
      i.action == Some(ReminderAlarmReceiver.ACTION_DISMISS) ==>
        r.device == ReminderAlarmReceiver.Dismiss(s.device, ReminderAlarmReceiver.ReceivedId(i), fault, storeOk)
  {
    var d := s.device;
    if notifId in d.shade && d.shade[notifId].kind.Sticky? then
      s.(device := ReminderAlarmReceiver.OnReceive(d, d.shade[notifId].kind.dismiss, millis, storeOk, fault, ReminderAlarmReceiver.PostsOk, parse))
    else s
  }

  /**
   * An alert brings up a new full-screen activity with its payload, which
   * saves the payload and may hand it straight to MainActivity. The new
   * instance joins the earlier ones, which keep running. A tap removes the
   * alert, which is auto-cancel; a launch by the system leaves it posted.
   */
  function AlertShownStep(s: System, notifId: Int32, tapped: bool, ttsSetupOk: bool, saveOk: bool, launchOk: bool, invokeOk: bool, parse: Parser): (r: System)
    ensures r.device.prefs == s.device.prefs && r.device.alarms == s.device.alarms
    ensures !tapped ==> r.device.shade == s.device.shade
    ensures tapped && notifId in s.device.shade && s.device.shade[notifId].kind.Alert? ==>
      r.device.shade == CancelNotification(s.device.shade, notifId)
    ensures s.main.delivered <= r.main.delivered
    ensures !(notifId in s.device.shade && s.device.shade[notifId].kind.Alert?) ==> r == s
    ensures notifId in s.device.shade && s.device.shade[notifId].kind.Alert? ==>
      var p := s.device.shade[notifId].kind.fullScreenPayload;
      && |r.screens| == |s.screens| + 1 && r.screens[..|s.screens|] == s.screens
      && var sc := r.screens[|s.screens|];
      && Valid(sc) && sc.payload == p
      && (sc.forwarded <==> !ttsSetupOk)
      && r.device.saved == SaveReminder(s.device.saved, p, saveOk)
      && (!ttsSetupOk && launchOk ==> r.main == OnNewIntent(s.main, p, invokeOk, parse))
      && (ttsSetupOk || !launchOk ==> r.main == s.main)
  {
    var d := s.device;
    if notifId in d.shade && d.shade[notifId].kind.Alert? then
      var payload := d.shade[notifId].kind.fullScreenPayload;
      var sc := Create(payload, None, ttsSetupOk, launchOk, parse);
      var main := DeliverLaunch(s.main, Screen(sc.payload, sc.speakText, false, false, [], []), sc, invokeOk, parse);
      var shade := if tapped then CancelNotification(d.shade, notifId) else d.shade;
      System(d.(saved := SaveReminder(d.saved, sc.payload, saveOk), shade := shade), main, s.screens + [sc])
    else s
  }

  /** Tapping a sticky notification removes it and opens MainActivity with its payload. */
  function StickyTappedStep(s: System, notifId: Int32, invokeOk: bool, parse: Parser): (r: System)
    ensures r.device.prefs == s.device.prefs && r.device.alarms == s.device.alarms && r.device.saved == s.device.saved
    ensures r.screens == s.screens
    ensures s.main.delivered <= r.main.delivered
    ensures !(notifId in s.device.shade && s.device.shade[notifId].kind.Sticky?) ==> r == s
    ensures notifId in s.device.shade && s.device.shade[notifId].kind.Sticky? ==>
      && notifId !in r.device.shade
      && r.main == OnNewIntent(s.main, s.device.shade[notifId].kind.tapPayload, invokeOk, parse)
  {
    var d := s.device;
    if notifId in d.shade && d.shade[notifId].kind.Sticky? then
      System(d.(shade := CancelNotification(d.shade, notifId)), OnNewIntent(s.main, d.shade[notifId].kind.tapPayload, invokeOk, parse), s.screens)
    else s
  }

  /**
   * A callback of the full-screen activity `index`; a launch it makes reaches
   * MainActivity. The other instances are untouched, and an index no
   * instance has changes nothing.
   */
  function ScreenCallbackStep(s: System, index: nat, cb: Callback, invokeOk: bool, parse: Parser): (r: System)
    ensures r.device == s.device
    ensures s.main.delivered <= r.main.delivered
    ensures index >= |s.screens| ==> r == s
    ensures index < |s.screens| ==> r.screens == s.screens[index := OnCallback(s.screens[index], cb)]
    ensures index < |s.screens| ==> r.main == DeliverLaunch(s.main, s.screens[index], r.screens[index], invokeOk, parse)
    ensures index < |s.screens| && !s.screens[index].forwarded && Forwards(cb) && cb.launchOk ==>
      r.main == OnNewIntent(s.main, s.screens[index].payload, invokeOk, parse)
    ensures index < |s.screens| && (s.screens[index].forwarded || !Forwards(cb) || !cb.launchOk) ==> r.main == s.main
  {
    if index < |s.screens| then
      var sc := OnCallback(s.screens[index], cb);
      s.(main := DeliverLaunch(s.main, s.screens[index], sc, invokeOk, parse), screens := s.screens[index := sc])
    else s
  }

  /**
   * `configureFlutterEngine` runs once for an activity instance, and the
   * queue belongs to that instance: once the engine is configured nothing
   * flushes the queue again until the process dies.
   */
  function EngineConfiguredStep(s: System, launchPayload: Option<string>, invokeOk: bool, failures: set<nat>, parse: Parser): (r: System)
    ensures r.device == s.device && r.screens == s.screens
    ensures s.main.engineReady ==> r == s
    ensures !s.main.engineReady ==> r.main == ConfigureEngine(s.main, launchPayload, invokeOk, failures, parse)
  {
    if s.main.engineReady then s
    else s.(main := ConfigureEngine(s.main, launchPayload, invokeOk, failures, parse))
  }

  /** One transition of the system. */
  function Step(s: System, e: Event, parse: Parser): (r: Stepped)
    ensures IsCall(e) <==> r.reply.Some?
    ensures s.main.delivered <= r.sys.main.delivered
    ensures IsCall(e) || e.AlarmDue? || e.DismissPressed? ==> r.sys.main == s.main && r.sys.screens == s.screens
    ensures e.EngineConfigured? && s.main.engineReady ==> r.sys == s
  {
    match e
    case ScheduleCall(when, id, payload, scheduleOk, storeOk) =>
      var h := MainActivity.ScheduleAlarm(s.device, when, id, payload, scheduleOk, storeOk);
      Stepped(s.(device := h.device), Some(h.reply))
    case CancelCall(id, cancelOk, storeOk, notifyOk) =>
      var h := MainActivity.CancelAlarm(s.device, id, cancelOk, storeOk, notifyOk);
      Stepped(s.(device := h.device), Some(h.reply))
    case PopCall(prefsOk) =>
      var h := MainActivity.PopSavedReminder(s.device, prefsOk);
      Stepped(s.(device := h.device), Some(h.reply))
    case AlarmDue(requestCode, millis, storeOk, post) =>
      Stepped(AlarmDueStep(s, requestCode, millis, storeOk, post, parse), None)
    case Reboot(now, listOk) =>
      Stepped(RebootStep(s, now, listOk), None)
    case DismissPressed(notifId, millis, storeOk, fault) =>
      Stepped(DismissStep(s, notifId, millis, storeOk, fault, parse), None)
    case AlertShown(notifId, tapped, ttsSetupOk, saveOk, launchOk, invokeOk) =>
      Stepped(AlertShownStep(s, notifId, tapped, ttsSetupOk, saveOk, launchOk, invokeOk, parse), None)
    case StickyTapped(notifId, invokeOk) =>
      Stepped(StickyTappedStep(s, notifId, invokeOk, parse), None)
    case ScreenCallback(index, cb, invokeOk) =>
      Stepped(ScreenCallbackStep(s, index, cb, invokeOk, parse), None)
    case EngineConfigured(launchPayload, invokeOk, failures) =>
      Stepped(EngineConfiguredStep(s, launchPayload, invokeOk, failures, parse), None)
  }

  /** The system after a run of events. */
  function Run(s: System, es: seq<Event>, parse: Parser): System
    decreases |es|
  {
    if |es| == 0 then s else Run(Step(s, es[0], parse).sys, es[1..], parse)
  }

  /**
   * The system invariant: store ids are unique, every posted sticky
   * notification's Dismiss broadcasts the dismiss action, and every
   * full-screen activity instance is valid.
   */
  predicate Inv(s: System) {
    && UniqueIds(List(s.device.prefs, true))
    && ReminderAlarmReceiver.DismissWired(s.device.shade)
    && (forall i :: 0 <= i < |s.screens| ==> Valid(s.screens[i]))
  }

  /**
   * A fresh install: no `scheduled_alarms` preference (read as the empty
   * array), no alarms, no notifications, nothing saved, and MainActivity
   * not yet configured.
   */
  const Init := System(Device([], map[], map[], None), Main(false, [], []), [])

  /** A due alarm keeps the store's ids unique: the receiver at most removes a record. */
  lemma AlarmDueKeepsUniqueIds(s: System, requestCode: Int32, millis: Int64, storeOk: bool, post: ReminderAlarmReceiver.PostFault, parse: Parser)
    requires UniqueIds(List(s.device.prefs, true))
    ensures UniqueIds(List(AlarmDueStep(s, requestCode, millis, storeOk, post, parse).device.prefs, true))
  {
    if requestCode in s.device.alarms {
      var d' := s.device.(alarms := Cancel(s.device.alarms, requestCode));
      ReminderAlarmReceiver.OnReceiveKeepsUniqueIds(d', s.device.alarms[requestCode].intent, millis, storeOk, ReminderAlarmReceiver.NoFault, post, parse);
    }
  }

  /** A Dismiss press keeps the store's ids unique. */
  lemma DismissKeepsUniqueIds(s: System, notifId: Int32, millis: Int64, storeOk: bool, fault: ReminderAlarmReceiver.DismissFault, parse: Parser)
    requires UniqueIds(List(s.device.prefs, true))
    ensures UniqueIds(List(DismissStep(s, notifId, millis, storeOk, fault, parse).device.prefs, true))
  {
    if notifId in s.device.shade && s.device.shade[notifId].kind.Sticky? {
      ReminderAlarmReceiver.OnReceiveKeepsUniqueIds(s.device, s.device.shade[notifId].kind.dismiss, millis, storeOk, fault, ReminderAlarmReceiver.PostsOk, parse);
    }
  }

  /** `scheduleAlarm` keeps the store's ids unique: `add` is an upsert. */
  lemma ScheduleKeepsUniqueIds(d: Device, when: Option<Int64>, id: Option<Int32>, payload: Option<string>, scheduleOk: bool, storeOk: bool)
    requires UniqueIds(List(d.prefs, true))
    ensures UniqueIds(List(MainActivity.ScheduleAlarm(d, when, id, payload, scheduleOk, storeOk).device.prefs, true))
  {
    AddUniqueIds(d.prefs, id.GetOr(0), when.GetOr(0), payload);
  }

  /** `cancelAlarm` keeps the store's ids unique. */
  lemma CancelKeepsUniqueIds(d: Device, id: Option<Int32>, cancelOk: bool, storeOk: bool, notifyOk: bool)
    requires UniqueIds(List(d.prefs, true))
    ensures UniqueIds(List(MainActivity.CancelAlarm(d, id, cancelOk, storeOk, notifyOk).device.prefs, true))
  {
    RemoveUniqueIds(d.prefs, id.GetOr(0));
  }

  /** The store's ids stay unique through every event. */
  lemma StepKeepsUniqueIds(s: System, e: Event, parse: Parser)
    requires UniqueIds(List(s.device.prefs, true))
    ensures UniqueIds(List(Step(s, e, parse).sys.device.prefs, true))
  {
    match e
    case ScheduleCall(when, id, payload, scheduleOk, storeOk) =>
      assert Step(s, e, parse).sys.device == MainActivity.ScheduleAlarm(s.device, when, id, payload, scheduleOk, storeOk).device;
      ScheduleKeepsUniqueIds(s.device, when, id, payload, scheduleOk, storeOk);
    case CancelCall(id, cancelOk, storeOk, notifyOk) =>
      assert Step(s, e, parse).sys.device == MainActivity.CancelAlarm(s.device, id, cancelOk, storeOk, notifyOk).device;
      CancelKeepsUniqueIds(s.device, id, cancelOk, storeOk, notifyOk);
    case AlarmDue(requestCode, millis, storeOk, post) =>
      assert Step(s, e, parse).sys == AlarmDueStep(s, requestCode, millis, storeOk, post, parse);
      AlarmDueKeepsUniqueIds(s, requestCode, millis, storeOk, post, parse);
    case DismissPressed(notifId, millis, storeOk, fault) =>
      assert Step(s, e, parse).sys == DismissStep(s, notifId, millis, storeOk, fault, parse);
      DismissKeepsUniqueIds(s, notifId, millis, storeOk, fault, parse);
    case _ =>
  }

  /** Cancelling notifications keeps every remaining sticky's Dismiss wired. */
  lemma CancelKeepsDismissWired(shade: Shade, r: Shade)
    requires ReminderAlarmReceiver.DismissWired(shade)
    requires forall k :: k in r ==> k in shade && r[k] == shade[k]
    ensures ReminderAlarmReceiver.DismissWired(r)
  {
  }

  /** Every event keeps every posted sticky's Dismiss wired to the dismiss action. */
  lemma StepKeepsDismissWired(s: System, e: Event, parse: Parser)
    requires ReminderAlarmReceiver.DismissWired(s.device.shade)
    ensures ReminderAlarmReceiver.DismissWired(Step(s, e, parse).sys.device.shade)
  {
    var r := Step(s, e, parse).sys;
    match e
    case AlarmDue(requestCode, millis, storeOk, post) =>
      assert r == AlarmDueStep(s, requestCode, millis, storeOk, post, parse);
      if requestCode in s.device.alarms {
        var d' := s.device.(alarms := Cancel(s.device.alarms, requestCode));
        ReminderAlarmReceiver.OnReceiveKeepsDismissWired(d', s.device.alarms[requestCode].intent, millis, storeOk, ReminderAlarmReceiver.NoFault, post, parse);
      }
    case DismissPressed(notifId, millis, storeOk, fault) =>
      assert r == DismissStep(s, notifId, millis, storeOk, fault, parse);
      if notifId in s.device.shade && s.device.shade[notifId].kind.Sticky? {
        ReminderAlarmReceiver.OnReceiveKeepsDismissWired(s.device, s.device.shade[notifId].kind.dismiss, millis, storeOk, fault, ReminderAlarmReceiver.PostsOk, parse);
      }
    case Reboot(now, listOk) =>
      assert r == RebootStep(s, now, listOk);
    case _ =>
      CancelKeepsDismissWired(s.device.shade, r.device.shade);
  }

  /** Every event keeps the system invariant. */
  lemma StepKeepsInv(s: System, e: Event, parse: Parser)
    requires Inv(s)
    ensures Inv(Step(s, e, parse).sys)
  {
    StepKeepsUniqueIds(s, e, parse);
    StepKeepsDismissWired(s, e, parse);
  }

  /**
   * Over any run of events the invariant holds, and the Dart side's record of
   * `showReminder` calls only grows.
   */
  lemma {:induction false} RunKeepsInv(s: System, es: seq<Event>, parse: Parser)
    requires Inv(s)
    ensures Inv(Run(s, es, parse))
    ensures s.main.delivered <= Run(s, es, parse).main.delivered
    decreases |es|
  {
    if |es| > 0 {
      StepKeepsInv(s, es[0], parse);
      RunKeepsInv(Step(s, es[0], parse).sys, es[1..], parse);
    }
  }

  /**
   * However many speech and timer callbacks arrive for the full-screen
   * activity `k`, it opens MainActivity at most once, with its own payload.
   */
  lemma {:induction false} ScreenHandsOffOnce(s: System, k: nat, cbs: seq<Callback>, oks: seq<bool>, parse: Parser)
    requires Inv(s) && k < |s.screens|
    requires |oks| == |cbs|
    ensures var r := Run(s, seq(|cbs|, i requires 0 <= i < |cbs| => ScreenCallback(k, cbs[i], oks[i])), parse);
      && |r.screens| == |s.screens|
      && |r.screens[k].launches| <= 1
      && (forall l :: l in r.screens[k].launches ==> l == s.screens[k].payload)
    decreases |cbs|
  {
    var es := seq(|cbs|, i requires 0 <= i < |cbs| => ScreenCallback(k, cbs[i], oks[i]));
    if |cbs| > 0 {
      var next := Step(s, es[0], parse).sys;
      assert next == ScreenCallbackStep(s, k, cbs[0], oks[0], parse);
      StepKeepsInv(s, es[0], parse);
      assert next.screens[k] == OnCallback(s.screens[k], cbs[0]);
      ScreenHandsOffOnce(next, k, cbs[1..], oks[1..], parse);
      assert es[1..] == seq(|cbs[1..]|, i requires 0 <= i < |cbs[1..]| => ScreenCallback(k, cbs[1..][i], oks[1..][i]));
      ForwardAtMostOnce(s.screens[k], [cbs[0]]);
      assert OnCallbacks(OnCallback(s.screens[k], cbs[0]), []) == OnCallback(s.screens[k], cbs[0]);
    }
  }

  /** From a fresh install, every run of events keeps the system invariant. */
  lemma InitRunKeepsInv(es: seq<Event>, parse: Parser)
    ensures Inv(Init)
    ensures Inv(Run(Init, es, parse))
  {
    assert List(Init.device.prefs, true) == [];
    RunKeepsInv(Init, es, parse);
  }

  /** A successful `scheduleAlarm` leaves its alarm in the store, ids still unique. */
  lemma ScheduleStores(s: System, id: Int32, when: Int64, payload: Option<string>, parse: Parser)
    requires UniqueIds(List(s.device.prefs, true))
    ensures var r := Step(s, ScheduleCall(Some(when), Some(id), payload, true, true), parse).sys;
      && StoredAlarm(id, when, payload) in List(r.device.prefs, true)
      && UniqueIds(List(r.device.prefs, true))
  {
    var r := Step(s, ScheduleCall(Some(when), Some(id), payload, true, true), parse).sys;
    assert r.device.prefs == Add(s.device.prefs, id, when, payload, true);
    AddUniqueIds(s.device.prefs, id, when, payload);
    AddThenList(s.device.prefs, id, when, payload);
    var stored := List(r.device.prefs, true);
    assert stored[|stored| - 1] == StoredAlarm(id, when, payload);
  }

  /** After a restart every stored alarm still ahead of `now` is registered again as it was stored. */
  lemma RebootRestores(s: System, now: Int64)
    requires UniqueIds(List(s.device.prefs, true))
    ensures forall a :: a in List(s.device.prefs, true) && a.whenUtc > now ==>
      a.id in RebootStep(s, now, true).device.alarms
      && RebootStep(s, now, true).device.alarms[a.id] == Registration(a.whenUtc, FireIntent(a.payload))
  {
    var cold := s.device.(alarms := map[], shade := map[]);
    BootReceiver.BootRearmsFuture(cold, BootReceiver.ACTION_BOOT_COMPLETED, now);
  }

  /**
   * An alarm scheduled for after the reboot comes back: the boot pass
   * registers it again with its own time and payload.
   */
  lemma ScheduleSurvivesReboot(s: System, id: Int32, when: Int64, payload: Option<string>, now: Int64, parse: Parser)
    requires UniqueIds(List(s.device.prefs, true))
    requires when > now
    ensures var scheduled := Step(s, ScheduleCall(Some(when), Some(id), payload, true, true), parse).sys;
      var rebooted := Step(scheduled, Reboot(now, true), parse).sys;
      && id in rebooted.device.alarms
      && rebooted.device.alarms[id] == Registration(when, FireIntent(payload))
  {
    var scheduled := Step(s, ScheduleCall(Some(when), Some(id), payload, true, true), parse).sys;
    ScheduleStores(s, id, when, payload, parse);
    RebootRestores(scheduled, now);
    assert Step(scheduled, Reboot(now, true), parse).sys == RebootStep(scheduled, now, true);
  }

  /**
   * A due alarm whose intent carries no id leaves the store as it was and
   * posts a sticky notification at the bare base id whose Dismiss carries -1.
   */
  lemma IdlessAlarmDue(s: System, requestCode: Int32, payload: Option<string>, millis: Int64, storeOk: bool, parse: Parser)
    requires requestCode in s.device.alarms && s.device.alarms[requestCode].intent == FireIntent(payload)
    ensures var r := AlarmDueStep(s, requestCode, millis, storeOk, ReminderAlarmReceiver.PostsOk, parse);
      && r.device.prefs == s.device.prefs
      && STICKY_BASE_ID in r.device.shade
      && r.device.shade[STICKY_BASE_ID].kind == Sticky(payload, ReminderAlarmReceiver.DismissIntent(-1))
  {
    var d' := s.device.(alarms := Cancel(s.device.alarms, requestCode));
    ReminderAlarmReceiver.ScheduledFireGap(d', payload, millis, storeOk, ReminderAlarmReceiver.NoFault, storeOk, millis, parse);
  }

  /** Dismiss on a notification whose dismiss intent carries -1 changes nothing. */
  lemma DismissWithoutId(s: System, notifId: Int32, millis: Int64, storeOk: bool, fault: ReminderAlarmReceiver.DismissFault, parse: Parser)
    requires notifId in s.device.shade && s.device.shade[notifId].kind.Sticky?
    requires s.device.shade[notifId].kind.dismiss == ReminderAlarmReceiver.DismissIntent(-1)
    ensures Step(s, DismissPressed(notifId, millis, storeOk, fault), parse).sys == s
  {
    assert Step(s, DismissPressed(notifId, millis, storeOk, fault), parse).sys == DismissStep(s, notifId, millis, storeOk, fault, parse);
  }

  /**
   * When an alarm set by `scheduleAlarm` goes off, its store record survives
   * (the fire intent has no id), the registration is gone, and the sticky
   * notification lands at 2000 with a Dismiss action carrying -1, which
   * `DismissWithoutId` shows to change nothing.
   */
  lemma ScheduledAlarmFires(s: System, id: Int32, when: Int64, payload: Option<string>, millis: Int64, storeOk: bool, parse: Parser)
    ensures var scheduled := Step(s, ScheduleCall(Some(when), Some(id), payload, true, true), parse).sys;
      var fired := Step(scheduled, AlarmDue(id, millis, storeOk, ReminderAlarmReceiver.PostsOk), parse).sys;
      && fired.device.prefs == scheduled.device.prefs
      && StoredAlarm(id, when, payload) in List(fired.device.prefs, true)
      && id !in fired.device.alarms
      && STICKY_BASE_ID in fired.device.shade
      && fired.device.shade[STICKY_BASE_ID].kind == Sticky(payload, ReminderAlarmReceiver.DismissIntent(-1))
  {
    var scheduled := Step(s, ScheduleCall(Some(when), Some(id), payload, true, true), parse).sys;
    assert scheduled.device.prefs == Add(s.device.prefs, id, when, payload, true);
    assert StoredAlarm(id, when, payload) in List(scheduled.device.prefs, true) by {
      AddThenList(s.device.prefs, id, when, payload);
      var stored := List(scheduled.device.prefs, true);
      assert stored[|stored| - 1] == StoredAlarm(id, when, payload);
    }
    var fired := AlarmDueStep(scheduled, id, millis, storeOk, ReminderAlarmReceiver.PostsOk, parse);
    assert Step(scheduled, AlarmDue(id, millis, storeOk, ReminderAlarmReceiver.PostsOk), parse).sys == fired;
    IdlessAlarmDue(scheduled, id, payload, millis, storeOk, parse);
  }

  /**
   * Two alarms set by `scheduleAlarm` that go off one after the other both
   * post their sticky notification at the bare base id, so the second
   * replaces the first.
   */
  lemma SecondFireReplacesSticky(s: System, rc1: Int32, p1: Option<string>, m1: Int64, ok1: bool,
                                 rc2: Int32, p2: Option<string>, m2: Int64, ok2: bool, parse: Parser)
    requires rc1 != rc2
    requires rc1 in s.device.alarms && s.device.alarms[rc1].intent == FireIntent(p1)
    requires rc2 in s.device.alarms && s.device.alarms[rc2].intent == FireIntent(p2)
    ensures var first := Step(s, AlarmDue(rc1, m1, ok1, ReminderAlarmReceiver.PostsOk), parse).sys;
      var second := Step(first, AlarmDue(rc2, m2, ok2, ReminderAlarmReceiver.PostsOk), parse).sys;
      && first.device.shade[STICKY_BASE_ID].kind == Sticky(p1, ReminderAlarmReceiver.DismissIntent(-1))
      && second.device.shade[STICKY_BASE_ID].kind == Sticky(p2, ReminderAlarmReceiver.DismissIntent(-1))
  {
    var first := AlarmDueStep(s, rc1, m1, ok1, ReminderAlarmReceiver.PostsOk, parse);
    assert Step(s, AlarmDue(rc1, m1, ok1, ReminderAlarmReceiver.PostsOk), parse).sys == first;
    IdlessAlarmDue(s, rc1, p1, m1, ok1, parse);
    assert first.device.alarms == Cancel(s.device.alarms, rc1);
    IdlessAlarmDue(first, rc2, p2, m2, ok2, parse);
    assert Step(first, AlarmDue(rc2, m2, ok2, ReminderAlarmReceiver.PostsOk), parse).sys == AlarmDueStep(first, rc2, m2, ok2, ReminderAlarmReceiver.PostsOk, parse);
  }

  /**
   * The full-screen activity both saves its payload and hands it over: with
   * the engine ready, the Dart side gets `showReminder` for it and a later
   * `popSavedReminder` returns it again.
   */
  lemma AlertDeliveredTwice(s: System, notifId: Int32, tapped: bool, p: string, parse: Parser)
    requires notifId in s.device.shade && s.device.shade[notifId].kind == Alert(Some(p))
    requires s.main.engineReady
    ensures var shown := Step(s, AlertShown(notifId, tapped, false, true, true, true), parse).sys;
      && shown.main.delivered == s.main.delivered + [ShowArg(p, parse)]
      && Step(shown, PopCall(true), parse).reply == Some(MainActivity.Success(Some(p)))
  {
    var shown := AlertShownStep(s, notifId, tapped, false, true, true, true, parse);
    assert Step(s, AlertShown(notifId, tapped, false, true, true, true), parse).sys == shown;
  }

  /** After `cancelAlarm`, no registration and no store record for the id remain. */
  lemma CancelClears(s: System, id: Int32, notifyOk: bool, parse: Parser)
    ensures var r := Step(s, CancelCall(Some(id), true, true, notifyOk), parse).sys;
      && id !in r.device.alarms
      && (forall a :: a in List(r.device.prefs, true) ==> a.id != id)
      && r.main == s.main && r.screens == s.screens
  {
  }

  /** A reboot loses the payloads MainActivity had queued for the Dart side. */
  lemma RebootDropsQueue(s: System, now: Int64, listOk: bool, parse: Parser)
    ensures var r := Step(s, Reboot(now, listOk), parse).sys;
      && r.main.pending == []
      && !r.main.engineReady
      && r.screens == []
      && r.device.shade == map[]
      && r.device.prefs == s.device.prefs
  {
  }

  /**
   * An alert's full-screen activity saves its payload, and a later
   * `popSavedReminder` answers it (or the older saved payload when the write
   * threw); a second pop answers null.
   */
  lemma SaveThenPop(s: System, notifId: Int32, tapped: bool, p: string, ttsSetupOk: bool, saveOk: bool, launchOk: bool, invokeOk: bool, parse: Parser)
    requires notifId in s.device.shade && s.device.shade[notifId].kind == Alert(Some(p))
    ensures var shown := Step(s, AlertShown(notifId, tapped, ttsSetupOk, saveOk, launchOk, invokeOk), parse).sys;
      var first := Step(shown, PopCall(true), parse);
      && first.reply == Some(MainActivity.Success(if saveOk then Some(p) else s.device.saved))
      && first.sys.device == shown.device.(saved := None)
      && Step(first.sys, PopCall(true), parse).reply == Some(MainActivity.Success(None))
  {
    var shown := AlertShownStep(s, notifId, tapped, ttsSetupOk, saveOk, launchOk, invokeOk, parse);
    assert Step(s, AlertShown(notifId, tapped, ttsSetupOk, saveOk, launchOk, invokeOk), parse).sys == shown;
  }

  /**
   * Tapping an alert removes it, because it is auto-cancel, so the same alert
   * cannot bring up a second full-screen activity.
   */
  lemma TappedAlertShowsOnce(s: System, notifId: Int32, t2: bool, tts1: bool, save1: bool, launch1: bool, invoke1: bool,
                             tts2: bool, save2: bool, launch2: bool, invoke2: bool, parse: Parser)
    requires notifId in s.device.shade && s.device.shade[notifId].kind.Alert?
    ensures var shown := Step(s, AlertShown(notifId, true, tts1, save1, launch1, invoke1), parse).sys;
      && notifId !in shown.device.shade
      && |shown.screens| == |s.screens| + 1
      && Step(shown, AlertShown(notifId, t2, tts2, save2, launch2, invoke2), parse).sys == shown
  {
    var shown := AlertShownStep(s, notifId, true, tts1, save1, launch1, invoke1, parse);
    assert Step(s, AlertShown(notifId, true, tts1, save1, launch1, invoke1), parse).sys == shown;
    assert Step(shown, AlertShown(notifId, t2, tts2, save2, launch2, invoke2), parse).sys
        == AlertShownStep(shown, notifId, t2, tts2, save2, launch2, invoke2, parse);
  }

  /** An alert whose activity sets up speech adds one unforwarded instance and hands nothing over yet. */
  lemma AlertWaitsForCallback(s: System, n: Int32, p: string, parse: Parser)
    requires n in s.device.shade && s.device.shade[n].kind == Alert(Some(p))
    ensures var r := Step(s, AlertShown(n, false, true, true, true, true), parse).sys;
      && r.main == s.main && r.device.shade == s.device.shade
      && |r.screens| == |s.screens| + 1 && r.screens[..|s.screens|] == s.screens
      && Valid(r.screens[|s.screens|]) && !r.screens[|s.screens|].forwarded
      && r.screens[|s.screens|].payload == Some(p)
  {
    assert Step(s, AlertShown(n, false, true, true, true, true), parse).sys == AlertShownStep(s, n, false, true, true, true, true, parse);
  }

  /** The fallback timer of an instance that has not forwarded delivers its payload to a configured MainActivity. */
  lemma TimerDelivers(s: System, k: nat, p: string, parse: Parser)
    requires s.main.engineReady
    requires k < |s.screens| && Valid(s.screens[k]) && !s.screens[k].forwarded && s.screens[k].payload == Some(p)
    ensures var r := Step(s, ScreenCallback(k, FallbackTimer(true), true), parse).sys;
      && r.main.engineReady
      && r.main.delivered == s.main.delivered + [ShowArg(p, parse)]
      && |r.screens| == |s.screens|
      && r.screens[k].launches == [Some(p)]
      && (forall j :: 0 <= j < |s.screens| && j != k ==> r.screens[j] == s.screens[j])
  {
    assert Step(s, ScreenCallback(k, FallbackTimer(true), true), parse).sys == ScreenCallbackStep(s, k, FallbackTimer(true), true, parse);
  }

  /**
   * The cold-start path: the fallback timer of an instance that has not
   * forwarded, while MainActivity's engine is not configured, queues the
   * payload for the flush at configuration and delivers nothing yet.
   */
  lemma TimerQueuesWhenNotReady(s: System, k: nat, p: string, invokeOk: bool, parse: Parser)
    requires !s.main.engineReady
    requires k < |s.screens| && !s.screens[k].forwarded && s.screens[k].payload == Some(p)
    ensures var r := Step(s, ScreenCallback(k, FallbackTimer(true), invokeOk), parse).sys;
      && !r.main.engineReady
      && r.main.pending == s.main.pending + [p]
      && r.main.delivered == s.main.delivered
  {
    assert Step(s, ScreenCallback(k, FallbackTimer(true), invokeOk), parse).sys == ScreenCallbackStep(s, k, FallbackTimer(true), invokeOk, parse);
  }

  /**
   * Two alerts shown before either activity's speech or timer fires: each
   * instance's fallback timer still forwards its own payload, so with the
   * engine ready the Dart side receives both, oldest first.
   */
  lemma TwoAlertsBothForward(s: System, n1: Int32, p1: string, n2: Int32, p2: string, parse: Parser)
    requires s.main.engineReady
    requires n1 in s.device.shade && s.device.shade[n1].kind == Alert(Some(p1))
    requires n2 in s.device.shade && s.device.shade[n2].kind == Alert(Some(p2))
    ensures var k := |s.screens|;
      var r := Run(s, [AlertShown(n1, false, true, true, true, true), AlertShown(n2, false, true, true, true, true),
                       ScreenCallback(k, FallbackTimer(true), true), ScreenCallback(k + 1, FallbackTimer(true), true)], parse);
      && r.main.delivered == s.main.delivered + [ShowArg(p1, parse), ShowArg(p2, parse)]
      && |r.screens| == k + 2
      && r.screens[k].launches == [Some(p1)] && r.screens[k + 1].launches == [Some(p2)]
  {
    var k := |s.screens|;
    var es := [AlertShown(n1, false, true, true, true, true), AlertShown(n2, false, true, true, true, true),
               ScreenCallback(k, FallbackTimer(true), true), ScreenCallback(k + 1, FallbackTimer(true), true)];
    var s1 := Step(s, es[0], parse).sys;
    AlertWaitsForCallback(s, n1, p1, parse);
    var s2 := Step(s1, es[1], parse).sys;
    AlertWaitsForCallback(s1, n2, p2, parse);
    assert s2.screens[k] == s1.screens[k];
    var s3 := Step(s2, es[2], parse).sys;
    TimerDelivers(s2, k, p1, parse);
    var s4 := Step(s3, es[3], parse).sys;
    TimerDelivers(s3, k + 1, p2, parse);
    assert Run(s, es, parse) == Run(s1, es[1..], parse);
    assert Run(s1, es[1..], parse) == Run(s2, es[2..], parse);
    assert Run(s2, es[2..], parse) == Run(s3, es[3..], parse);
    assert Run(s3, es[3..], parse) == Run(s4, es[4..], parse);
  }

  /**
   * A payload that reaches a configured MainActivity whose `showReminder`
   * call throws is queued, and no later engine configuration flushes it:
   * the queue is only flushed from `configureFlutterEngine`, which has
   * already run for this instance.
   */
  lemma QueuedAfterConfigureStays(s: System, notifId: Int32, p: string, launchPayload: Option<string>, invokeOk: bool, failures: set<nat>, parse: Parser)
    requires s.main.engineReady
    requires notifId in s.device.shade && s.device.shade[notifId].kind.Sticky? && s.device.shade[notifId].kind.tapPayload == Some(p)
    ensures var tapped := Step(s, StickyTapped(notifId, false), parse).sys;
      && tapped.main.pending == s.main.pending + [p]
      && tapped.main.delivered == s.main.delivered
      && Step(tapped, EngineConfigured(launchPayload, invokeOk, failures), parse).sys == tapped
  {
    var tapped := StickyTappedStep(s, notifId, false, parse);
    assert Step(s, StickyTapped(notifId, false), parse).sys == tapped;
  }
}

=== FILE: reminder_alarm_receiver.dfy ===
/**
 * ReminderAlarmReceiver: one entry point for two broadcasts. A dismiss
 * broadcast (from a sticky notification's Dismiss action) clears one alarm;
 * any other broadcast is an alarm firing, which posts an alert notification
 * and a sticky notification.
 */
module ReminderAlarmReceiver {
  import opened Wrappers
  import opened Kotlin
  import opened AlarmStore
  import opened AlarmScheduler
  import opened Notifications
  import opened Device

  const ACTION_DISMISS := "com.carepanion.app.ACTION_DISMISS"
  const DEFAULT_TITLE := "Task Reminder"
  const GENERIC_BODY := "Tap to view your reminder"
  const TASK_BODY := "It's time to do this task."

  /** `getIntExtra("id", -1)`. */
  function ReceivedId(i: ReceiverIntent): (id: Int32)
    ensures i.id.None? ==> id == -1
    ensures i.id.Some? ==> id == i.id.value
  {
    i.id.GetOr(-1)
  }

  /** The broadcast a sticky notification's Dismiss action sends. */
  function DismissIntent(id: Int32): (i: ReceiverIntent)
    ensures i.action == Some(ACTION_DISMISS) && ReceivedId(i) == id
  {
    ReceiverIntent(Some(ACTION_DISMISS), None, Some(id))
  }

  /** The payload parsed as a JSON object: `None` when it is null or does not parse. */
  function ParsePayload(payload: Option<string>, parse: Parser): Option<JsonObject> {
    if payload.Some? then parse(payload.value) else None
  }

  /**
   * The notification title: `task_title` when the payload parses and the
   * title is not blank, else the default. Never blank.
   */
  function Title(payload: Option<string>, parse: Parser): (t: string)
    ensures !IsBlank(t)
    ensures var o := ParsePayload(payload, parse);
      t == if o.Some? && !IsBlank(OptString(o.value, "task_title")) then OptString(o.value, "task_title") else DEFAULT_TITLE
  {
    assert !IsWhitespace(DEFAULT_TITLE[0]);
    var o := ParsePayload(payload, parse);
    if o.Some? && !IsBlank(OptString(o.value, "task_title")) then OptString(o.value, "task_title") else DEFAULT_TITLE
  }

  /**
   * The notification body: the generic text when the payload is null or does
   * not parse; otherwise `task_note` when not blank, else the task text.
   * Never blank.
   */
  function Body(payload: Option<string>, parse: Parser): (b: string)
    ensures !IsBlank(b)
    ensures ParsePayload(payload, parse).None? ==> b == GENERIC_BODY
    ensures var o := ParsePayload(payload, parse);
      o.Some? ==> b == if !IsBlank(OptString(o.value, "task_note")) then OptString(o.value, "task_note") else TASK_BODY
  {
    assert !IsWhitespace(GENERIC_BODY[0]) && !IsWhitespace(TASK_BODY[0]);
    var o := ParsePayload(payload, parse);
    if o.None? then GENERIC_BODY
    else if !IsBlank(OptString(o.value, "task_note")) then OptString(o.value, "task_note")
    else TASK_BODY
  }

  /** Which step of the dismiss branch throws, if any. The three steps share one `try`. */
  datatype DismissFault = NoFault | NotificationCancelThrows | AlarmCancelThrows

  /**
   * The dismiss branch for `id`: cancel notification `2000 + id`, cancel the
   * alarm, remove the store record, stopping at the first step that throws.
   * A negative id changes nothing. Only the sticky identity is cancelled; an
   * alert notification stays posted. `storeOk` is the store's own swallowed
   * failure.
   */
  function Dismiss(d: Device, id: Int32, fault: DismissFault, storeOk: bool): (r: Device)
    ensures id < 0 ==> r == d
    ensures fault == NotificationCancelThrows ==> r == d
    ensures r.saved == d.saved
    ensures r.alarms.Keys <= d.alarms.Keys && r.shade.Keys <= d.shade.Keys
    ensures forall k :: k in r.shade ==> r.shade[k] == d.shade[k]
    ensures forall k :: k in d.shade && k != StickyId(id) ==> k in r.shade && r.shade[k] == d.shade[k]
    ensures forall k :: k in d.alarms && k != id ==> k in r.alarms && r.alarms[k] == d.alarms[k]
    ensures id >= 0 && fault != NotificationCancelThrows ==> StickyId(id) !in r.shade
    ensures id >= 0 && fault == AlarmCancelThrows ==> r.alarms == d.alarms && r.prefs == d.prefs
    ensures id >= 0 && fault == NoFault ==> id !in r.alarms
    ensures id >= 0 && fault == NoFault && !storeOk ==> r.prefs == d.prefs
    ensures id >= 0 && fault == NoFault && storeOk ==>
      List(r.prefs, true) == Without(List(d.prefs, true), id)
  {
    if id >= 0 then
      if fault == NotificationCancelThrows then d
      else
        var shade := CancelNotification(d.shade, AddInt(2000, id));
        if fault == AlarmCancelThrows then d.(shade := shade)
        else
          RemoveThenList(d.prefs, id);
          d.(shade := shade, alarms := Cancel(d.alarms, id), prefs := Remove(d.prefs, id, storeOk))
    else d
  }

  /**
   * Which notification call of the fire branch throws, if any. None of them
   * is inside a `try`: `AlertThrows` is `createNotificationChannel` or the
   * alert's `notify` throwing, so nothing is posted; `StickyThrows` is the
   * sticky's `notify` throwing after the alert is posted. Either way the
   * broadcast ends there, after the store record was already removed.
   */
  datatype PostFault = PostsOk | AlertThrows | StickyThrows

  /** The alert and the sticky notification one fire posts, with the same title and body. */
  function AlertOf(payload: Option<string>, parse: Parser): Notification {
    Notification(Title(payload, parse), Body(payload, parse), Alert(payload))
  }

  function StickyOf(payload: Option<string>, id: Int32, parse: Parser): Notification {
    Notification(Title(payload, parse), Body(payload, parse), Sticky(payload, DismissIntent(id)))
  }

  /**
   * The fire branch. The store record is removed only when the intent carried
   * an id (any id but -1). Then an alert is posted at `AlertId(millis)` and a
   * sticky notification at `StickyId(id)`, with the same title and body; the
   * sticky one's Dismiss action carries the id this fire received. Posting
   * the sticky second, it replaces the alert when the identities coincide.
   */
  function Fire(d: Device, payload: Option<string>, id: Int32, millis: Int64, storeOk: bool, post: PostFault, parse: Parser): (r: Device)
    ensures id == -1 ==> r.prefs == d.prefs
    ensures id != -1 && storeOk ==> List(r.prefs, true) == Without(List(d.prefs, true), id)
    ensures id != -1 && !storeOk ==> r.prefs == d.prefs
    ensures r.alarms == d.alarms && r.saved == d.saved
    ensures post == AlertThrows ==> r.shade == d.shade
    ensures post == StickyThrows ==>
      r.shade.Keys == d.shade.Keys + {AlertId(millis)} && r.shade[AlertId(millis)] == AlertOf(payload, parse)
    ensures post == PostsOk ==> r.shade.Keys == d.shade.Keys + {AlertId(millis), StickyId(id)}
    ensures post == PostsOk ==> r.shade[StickyId(id)] == StickyOf(payload, id, parse)
    ensures post == PostsOk && AlertId(millis) != StickyId(id) ==> r.shade[AlertId(millis)] == AlertOf(payload, parse)
    ensures forall k :: k in d.shade && k != AlertId(millis) && k != StickyId(id) ==> r.shade[k] == d.shade[k]
    ensures forall k :: k in r.shade ==>
      r.shade[k] == AlertOf(payload, parse) || r.shade[k] == StickyOf(payload, id, parse) || (k in d.shade && r.shade[k] == d.shade[k])
  {
    RemoveThenList(d.prefs, id);
    var prefs := if id != -1 then Remove(d.prefs, id, storeOk) else d.prefs;
    if post == AlertThrows then d.(prefs := prefs)
    else
      var shade := Post(d.shade, AlertId(millis), AlertOf(payload, parse));
      if post == StickyThrows then d.(prefs := prefs, shade := shade)
      else d.(prefs := prefs, shade := Post(shade, StickyId(id), StickyOf(payload, id, parse)))
  }

  /** `onReceive(intent)`: the dismiss action goes to `Dismiss`, every other broadcast to `Fire`. */
  function OnReceive(d: Device, intent: ReceiverIntent, millis: Int64, storeOk: bool, fault: DismissFault, post: PostFault, parse: Parser): (r: Device)
    ensures intent.action == Some(ACTION_DISMISS) ==> r.shade.Keys <= d.shade.Keys
    ensures intent.action == Some(ACTION_DISMISS) ==> r == Dismiss(d, ReceivedId(intent), fault, storeOk)
    ensures intent.action == Some(ACTION_DISMISS) && ReceivedId(intent) < 0 ==> r == d
    ensures intent.action != Some(ACTION_DISMISS) ==>
      r.shade.Keys <= d.shade.Keys + {AlertId(millis), StickyId(ReceivedId(intent))}
    ensures intent.action != Some(ACTION_DISMISS) && post == PostsOk ==>
      r.shade.Keys == d.shade.Keys + {AlertId(millis), StickyId(ReceivedId(intent))}
  {
    if intent.action == Some(ACTION_DISMISS) then Dismiss(d, ReceivedId(intent), fault, storeOk)
    else Fire(d, intent.payload, ReceivedId(intent), millis, storeOk, post, parse)
  }

  /** Every posted sticky notification's Dismiss action broadcasts the dismiss action. */
  predicate DismissWired(shade: Shade) {
    forall k :: k in shade && shade[k].kind.Sticky? ==> shade[k].kind.dismiss.action == Some(ACTION_DISMISS)
  }

  /** The receiver only posts stickies built with `DismissIntent`, so their Dismiss stays wired. */
  lemma OnReceiveKeepsDismissWired(d: Device, intent: ReceiverIntent, millis: Int64, storeOk: bool, fault: DismissFault, post: PostFault, parse: Parser)
    requires DismissWired(d.shade)
    ensures DismissWired(OnReceive(d, intent, millis, storeOk, fault, post, parse).shade)
  {
    var r := OnReceive(d, intent, millis, storeOk, fault, post, parse);
    if intent.action != Some(ACTION_DISMISS) {
      var id := ReceivedId(intent);
      forall k | k in r.shade && r.shade[k].kind.Sticky?
        ensures r.shade[k].kind.dismiss.action == Some(ACTION_DISMISS)
      {
        assert r.shade[k] == AlertOf(intent.payload, parse) || r.shade[k] == StickyOf(intent.payload, id, parse) || (k in d.shade && r.shade[k] == d.shade[k]);
      }
    }
  }

  /** Either broadcast at most removes one id's records, so the store's ids stay unique. */
  lemma OnReceiveKeepsUniqueIds(d: Device, intent: ReceiverIntent, millis: Int64, storeOk: bool, fault: DismissFault, post: PostFault, parse: Parser)
    requires UniqueIds(List(d.prefs, true))
    ensures UniqueIds(List(OnReceive(d, intent, millis, storeOk, fault, post, parse).prefs, true))
  {
    var id := ReceivedId(intent);
    var r := OnReceive(d, intent, millis, storeOk, fault, post, parse);
    assert r.prefs == d.prefs || r.prefs == Remove(d.prefs, id, true) || r.prefs == Remove(d.prefs, id, false);
    RemoveUniqueIds(d.prefs, id);
  }

  /**
   * An alarm registered by `scheduleExact` fires without an id: the store
   * record survives, the sticky notification lands on the bare base id 2000,
   * and its Dismiss action carries -1, so pressing Dismiss changes nothing.
   */
  lemma ScheduledFireGap(d: Device, payload: Option<string>, millis: Int64, storeOk: bool, fault: DismissFault, storeOk2: bool, millis2: Int64, parse: Parser)
    ensures var r := OnReceive(d, FireIntent(payload), millis, storeOk, fault, PostsOk, parse);
      && r.prefs == d.prefs
      && STICKY_BASE_ID in r.shade
      && r.shade[STICKY_BASE_ID].kind == Sticky(payload, DismissIntent(-1))
      && (forall post :: OnReceive(r, DismissIntent(-1), millis2, storeOk2, fault, post, parse) == r)
  {
  }

  /**
   * Dismissing the sticky notification of a fire that carried a non-negative
   * id clears that id's sticky notification, alarm and store record.
   */
  lemma DismissAfterFire(d: Device, payload: Option<string>, id: Int32, millis: Int64, millis2: Int64, parse: Parser)
    requires id >= 0
    ensures var fired := Fire(d, payload, id, millis, true, PostsOk, parse);
      var n := fired.shade[StickyId(id)];
      && n.kind.Sticky?
      && var r := OnReceive(fired, n.kind.dismiss, millis2, true, NoFault, PostsOk, parse);
      && StickyId(id) !in r.shade
      && id !in r.alarms
      && (forall a :: a in List(r.prefs, true) ==> a.id != id)
  {
  }
}

=== FILE: reminder_full_screen.dfy ===
/**
 * ReminderFullScreenActivity: shown by an alert notification. It speaks a
 * short utterance, saves the payload into `saved_reminder`, and hands the
 * payload to MainActivity exactly once per instance, on whichever of the
 * speech callbacks or the 7-second fallback timer comes first.
 */
module ReminderFullScreen {
  import opened Wrappers
  import opened Kotlin

  const FALLBACK_SPEECH := "You have a reminder"

  /**
   * One activity instance. `forwarded` is the guard of `forwardToMain`,
   * `finished` records that `finish()` ran, `launches` holds the
   * `reminder_payload` of each MainActivity launch this instance made, and
   * `spoken` the utterances handed to the speech engine.
   */
  datatype Screen = Screen(
    payload: Option<string>,
    speakText: Option<string>,
    forwarded: bool,
    finished: bool,
    launches: seq<Option<string>>,
    spoken: seq<string>)

  /** The instance invariant: at most one launch, carrying the payload, and only once forwarded. */
  predicate Valid(sc: Screen) {
    && |sc.launches| <= 1
    && (forall l :: l in sc.launches ==> l == sc.payload)
    && (sc.forwarded <==> sc.finished)
    && (!sc.forwarded ==> sc.launches == [])
  }

  /** The payload extra: `reminder_payload`, else the legacy `payload`. */
  function SelectPayload(reminderPayload: Option<string>, legacyPayload: Option<string>): (p: Option<string>)
    ensures reminderPayload.Some? ==> p == reminderPayload
    ensures reminderPayload.None? ==> p == legacyPayload
  {
    reminderPayload.OrElse(legacyPayload)
  }

  /**
   * The text chosen in `onCreate`: `task_title` when present, the generic
   * phrase when only `task_id` is, nothing otherwise.
   */
  function SpeakText(payload: Option<string>, parse: Parser): Option<string> {
    if payload.None? then None
    else match parse(payload.value)
      case None => None
      case Some(o) =>
        if "task_title" in o then Some(OptString(o, "task_title"))
        else if "task_id" in o then Some(FALLBACK_SPEECH)
        else None
  }

  /**
   * What the speech engine is asked to say: the `task_title` member whenever
   * the payload parses and has one (even an empty one), else the generic phrase.
   */
  function Utterance(payload: Option<string>, parse: Parser): (u: string)
    ensures u == if payload.Some? && parse(payload.value).Some? && "task_title" in parse(payload.value).value
                 then parse(payload.value).value["task_title"]
                 else FALLBACK_SPEECH
  {
    SpeakText(payload, parse).GetOr(FALLBACK_SPEECH)
  }

  /**
   * `forwardToMain`: the first call sets the guard, launches MainActivity with
   * the payload (no launch is recorded when `startActivity` throws) and
   * finishes in any case; every later call does nothing.
   */
  function ForwardToMain(sc: Screen, launchOk: bool): (r: Screen)
    ensures sc.forwarded ==> r == sc
    ensures !sc.forwarded ==> r.forwarded && r.finished
    ensures !sc.forwarded ==> r.launches == sc.launches + (if launchOk then [sc.payload] else [])
    ensures r.payload == sc.payload && r.spoken == sc.spoken
    ensures Valid(sc) ==> Valid(r)
  {
    if sc.forwarded then sc
    else sc.(forwarded := true, finished := true, launches := sc.launches + if launchOk then [sc.payload] else [])
  }

  /**
   * `onCreate`: selects the payload and the speech text, and forwards at once
   * when creating the speech engine throws (`ttsSetupOk` false).
   */
  function Create(reminderPayload: Option<string>, legacyPayload: Option<string>, ttsSetupOk: bool, launchOk: bool, parse: Parser): (sc: Screen)
    ensures Valid(sc)
    ensures sc.payload == SelectPayload(reminderPayload, legacyPayload)
    ensures sc.spoken == []
    ensures sc.forwarded <==> !ttsSetupOk
    ensures sc.launches == if !ttsSetupOk && launchOk then [sc.payload] else []
  {
    var payload := SelectPayload(reminderPayload, legacyPayload);
    var initial := Screen(payload, SpeakText(payload, parse), false, false, [], []);
    if ttsSetupOk then initial else ForwardToMain(initial, launchOk)
  }

  /**
   * The `saved_reminder` write in `onCreate`: overwritten with a non-null
   * payload, untouched for a null one or when the write throws.
   */
  function SaveReminder(saved: Option<string>, payload: Option<string>, writeOk: bool): (r: Option<string>)
    ensures payload.Some? && writeOk ==> r == payload
    ensures payload.None? || !writeOk ==> r == saved
  {
    if payload.Some? && writeOk then payload else saved
  }

  /** The asynchronous callbacks an instance can receive, each with the outcome of a launch it may make. */
  datatype Callback =
    | TtsInit(success: bool, speakOk: bool, launchOk: bool)
    | TtsDone(launchOk: bool)
    | TtsError(launchOk: bool)
    | FallbackTimer(launchOk: bool)

  /** Every callback but a successful engine start that manages to speak leads to `forwardToMain`. */
  predicate Forwards(cb: Callback) {
    !(cb.TtsInit? && cb.success && cb.speakOk)
  }

  /**
   * One callback. A successful engine start queues the utterance; an engine
   * start that fails or throws, speech completion, a speech error and the
   * fallback timer call `forwardToMain`.
   */
  function OnCallback(sc: Screen, cb: Callback): (r: Screen)
    ensures Forwards(cb) ==> r == ForwardToMain(sc, cb.launchOk)
    ensures !Forwards(cb) ==> r == sc.(spoken := sc.spoken + [sc.speakText.GetOr(FALLBACK_SPEECH)])
  {
    match cb
    case TtsInit(success, speakOk, launchOk) =>
      if success && speakOk then sc.(spoken := sc.spoken + [sc.speakText.GetOr(FALLBACK_SPEECH)])
      else ForwardToMain(sc, launchOk)
    case TtsDone(launchOk) => ForwardToMain(sc, launchOk)
    case TtsError(launchOk) => ForwardToMain(sc, launchOk)
    case FallbackTimer(launchOk) => ForwardToMain(sc, launchOk)
  }

  /** A sequence of callbacks, in arrival order. */
  function OnCallbacks(sc: Screen, cbs: seq<Callback>): Screen
    decreases |cbs|
  {
    if |cbs| == 0 then sc else OnCallbacks(OnCallback(sc, cbs[0]), cbs[1..])
  }

  /**
   * Whatever callbacks arrive, in whatever order and number, an instance
   * launches MainActivity at most once, only with its own payload, and never
   * again once it has forwarded.
   */
  lemma {:induction false} ForwardAtMostOnce(sc: Screen, cbs: seq<Callback>)
    requires Valid(sc)
    ensures Valid(OnCallbacks(sc, cbs))
    ensures |OnCallbacks(sc, cbs).launches| <= 1
    ensures sc.forwarded ==> OnCallbacks(sc, cbs).launches == sc.launches
    ensures OnCallbacks(sc, cbs).payload == sc.payload
    decreases |cbs|
  {
    if |cbs| > 0 {
      ForwardAtMostOnce(OnCallback(sc, cbs[0]), cbs[1..]);
    }
  }

  /**
   * Any callback that forwards (the fallback timer always does) leaves the
   * instance forwarded and finished for good.
   */
  lemma {:induction false} ForwardingCallbackForwards(sc: Screen, cbs: seq<Callback>, i: nat)
    requires Valid(sc)
    requires i < |cbs| && Forwards(cbs[i])
    ensures OnCallbacks(sc, cbs).forwarded && OnCallbacks(sc, cbs).finished
    decreases |cbs|
  {
    if i == 0 {
      StaysForwarded(OnCallback(sc, cbs[0]), cbs[1..]);
    } else {
      ForwardingCallbackForwards(OnCallback(sc, cbs[0]), cbs[1..], i - 1);
    }
  }

  /** Once forwarded, an instance stays forwarded and finished. */
  lemma {:induction false} StaysForwarded(sc: Screen, cbs: seq<Callback>)
    requires Valid(sc) && sc.forwarded
    ensures OnCallbacks(sc, cbs).forwarded && OnCallbacks(sc, cbs).finished
    ensures OnCallbacks(sc, cbs).launches == sc.launches
    decreases |cbs|
  {
    if |cbs| > 0 {
      StaysForwarded(OnCallback(sc, cbs[0]), cbs[1..]);
    }
  }
}

=== FILE: wrappers.dfy ===
/** Optional values: the model's stand-in for Kotlin's nullable types. */
module Wrappers {

  datatype Option<+T> = None | Some(value: T) {

    /** Kotlin's elvis operator `x ?: default`. */
    function GetOr(default: T): T {
      match this
      case Some(v) => v
      case None => default
    }

    /** Kotlin's elvis operator between two nullable values, `x ?: y`. */
    function OrElse(other: Option<T>): Option<T> {
      match this
      case Some(_) => this
      case None => other
    }
  }
}
